=== FILE: README.md ===
# Framing protocol of `BashInteractive`

`BashInteractive` drives one long-lived interactive shell through its
standard input and output pipes. Each call to `execute` does the following:

1. It wraps the command in an *envelope*, one line of shell text:
   - the command is stripped;
   - its error output is redirected into its standard output;
   - it is optionally bounded by `timeout … sh -c '…'`;
   - it runs inside a `set -euo pipefail` sub-shell whose output is piped
     through `base64 --wrap 0; echo; echo;`.
2. It writes the envelope and reads lines until the first blank line. That
   text is the *frame*.
3. It base64-decodes the frame.
4. It writes `echo $?` and parses the next line as the exit status.

`terminate` writes `exit` and signals the process, but only if the process
is still alive.

The project models this protocol with pure functions. Strings are
`seq<char>` and the output pipe is a sequence of lines. The shell itself is
a pair of parameters: the lines it prints in answer to the envelope, and the
lines it prints in answer to the status query. The session is an immutable
record with three parts:

- a liveness flag supplied from outside;
- the log of every string written to standard input;
- the lines already in the pipe that no read has taken.

The modules, one per file:

- `Wrappers` (`wrappers.dfy`): `Option`.
- `PyText` (`pytext.dfy`): the three Python string operations the protocol
  uses.
  - `str.strip()`, with Python's `isspace` set.
  - `str(int)`, used to format the timeout.
  - `int(str)`, used to parse the status: optional sign and ASCII digits,
    surrounding whitespace ignored.
- `ShellQuote` (`shell_quote.dfy`): `shlex.quote`, plus the POSIX shell's
  quote removal as its inverse.
- `Base64` (`base64.dfy`): the encoding of section 4 of RFC 4648, without
  line wrapping, as `base64 --wrap 0` writes it. Also `base64.b64decode` of
  a `str` in its default mode:
  - text holding a character outside ASCII is refused (`ValueError`);
  - otherwise the text goes to `binascii.a2b_base64` in its non-strict
    mode, modelled as CPython 3.11 and later implement it: a scanner that
    skips every character outside the alphabet, skips padding in the first
    two positions of a group, stops successfully at padding that completes
    a group, and fails (`binascii.Error`) when the text ends inside a
    group.
- `LineStream` (`line_stream.dfy`): the pipe as lines, as `readline` returns
  them. It holds the frame reader as written, and a corrected reader (see
  Findings).
- `CommandEnvelope` (`envelope.dfy`): the envelope.
- `BashSession` (`bash_session.dfy`): the session record, `execute` (as
  written and corrected) and `terminate`, and the lemmas that relate a
  command's output and exit status to what `execute` returns.

The comment at `bash_stream.py:81-82` says the framing is safe because
base64 output never holds a blank line. `Base64.Encode` proves that the
encoded text has no line terminator at all. The first finding below shows
that this is still not enough: it fails when the encoded text is empty.

The lenient decoder matters for the stale status line the finding leaves
behind. That line lands in front of the next frame, and its digits count as
alphabet characters. Whether the frame then decodes depends on the number
of digits and on the output's length `n`:

- One digit and `n % 3 == 1`: the digit and the encoding's `4m + 2`
  alphabet characters leave three characters in the last group. The first
  `=` completes that group and stops the scan.
- One digit and `n % 3 == 2`: the digit and the `4m + 3` alphabet
  characters fill whole groups. The `=` arrives on a group boundary and is
  skipped, and the text is accepted because the scan ends on a boundary.
- Two digits and `n % 3 == 1`: the digits and the `4m + 2` alphabet
  characters fill whole groups. Both `=` are skipped, and again the scan
  ends on a boundary.

In every other case of a status below 1000, the frame does not decode. A
silent command usually leaves the status `0`, one digit, so the frame
decodes for two of every three output lengths. When it decodes, it
decodes silently to the wrong bytes. `BashSession.StaleFrameDecode` states
exactly when this happens.

A command that ends in `&` with no space before it gets the redirection
glued onto its last word: `sleep 1&` becomes `sleep 12>&1 &`, in which the
shell reads `12>&1` as a redirection of descriptor 12. That is the second
finding. `execute` as written (`BashSession.ExecuteAsWritten`) uses the
envelope as written; the corrected `BashSession.Execute` uses the corrected
envelope and the corrected frame reader.

## Model

| member | source | states |
|---|---|---|
| PyText.Strip | bash_stream.py:65 | `str.strip()`: the result is empty only when the whole text is whitespace; otherwise it is the slice after the leading whitespace, with only whitespace after it and none at either of its ends |
| PyText.StripIdempotent | bash_stream.py:65 | stripping an already stripped command changes nothing |
| PyText.StripLineEnd | bash_stream.py:95 | a status line with no whitespace at its ends, followed by its line terminator, strips to the text without the terminator |
| PyText.IntToDecimal | bash_stream.py:73 | `str(t)` for the timeout is non-empty, has no whitespace at its ends and no line break, and starts with `-` exactly when `t` is negative |
| PyText.ParseInt | bash_stream.py:95-96 | `int()` rejects text that is blank after stripping |
| PyText.ParseIntToDecimal | bash_stream.py:95-96 | `int(str(n)) == n`, also when a whitespace character such as the line terminator follows |
| PyText.NatToDigitsLength | bash_stream.py:93-95 | an exit status below 1000 is printed in one digit below 10, two below 100, and three otherwise |
| ShellQuote.EscapeQuotes | bash_stream.py:73 | escaping single quotes for `shlex.quote` adds or removes no line break |
| ShellQuote.Quote | bash_stream.py:73 | `shlex.quote`: empty text becomes `''`; text with an unsafe character is enclosed in single quotes; a line break is in the result exactly when it is in the text |
| ShellQuote.UnquoteQuote | bash_stream.py:73 | the shell's quote removal turns `shlex.quote(s)` back into exactly `s`, for every `s` |
| Base64.Encode | bash_stream.py:74-82 | `base64 --wrap 0` writes a multiple of four characters, all from the alphabet or padding, none a line terminator, and nothing only for empty input |
| Base64.EncodePadding | bash_stream.py:74 | the encoding of `n` bytes ends in `(3 - n % 3) % 3` padding characters, and everything before them is alphabet |
| Base64.Decode | bash_stream.py:90 | `b64decode` of a `str`: text outside ASCII is refused; otherwise the result is the scanner's bytes when padding stopped the scan, and the text is accepted when the scan ran to the end exactly when it ended on a group boundary, with the bytes the scanner wrote as the result (`QUJD` followed by terminators gives `ABC`) |
| Base64.Take | bash_stream.py:90 | each alphabet character moves the scanner one position on in its group of four and writes a byte unless it opens the group, so the count of bytes stays in step with the position |
| Base64.RunAppend | bash_stream.py:85-90 | decoding the accumulated frame text in two parts: the second part is scanned from where the first left off, unless padding already ended the scan |
| Base64.RunEncode | bash_stream.py:74-90 | scanning the encoding of `bs` writes exactly `bs`; it stops at the padding of a short last group, and otherwise ends on a group boundary |
| Base64.DecodeEncode | bash_stream.py:74-90 | `b64decode` of the encoded text followed by any number of line terminators gives back exactly the bytes encoded |
| Base64.StrayDigitDecodes | bash_stream.py:90 | `QQ==` encodes the byte 65, and `b64decode("0\nQQ==\n\n")` is `b'\xd1\x04'`: padding after a stray digit completes a group instead of raising |
| Base64.DecodeAfterStray | bash_stream.py:83-90 | one to three alphabet characters and a line terminator in front of the encoding of `bs` (and its two terminators): the text decodes exactly for one character and `\|bs\| % 3 != 0`, or two characters and `\|bs\| % 3 == 1`, and then to a number of bytes different from `\|bs\|` modulo three |
| LineStream.Lines | bash_stream.py:87 | the pipe read line by line: the lines concatenate to the text, and each line but the last ends at its first line terminator |
| LineStream.FirstBlank | bash_stream.py:85 | the position of the line that ends the read loop: it is blank and no earlier line is |
| LineStream.ReadUntilBlank | bash_stream.py:83-89 | the read loop returns exactly when a blank line arrives; its text is the text accumulated so far followed by every line up to and including the first blank one, and later lines stay unread |
| LineStream.ReadFrame | bash_stream.py:83-89 | the read loop started from `stdout = ""` returns exactly when a blank line arrives; its text is every line up to and including the first blank one, and later lines stay unread |
| LineStream.ReadFramePayloadFirst | bash_stream.py:83-89 | the corrected reader returns exactly when a blank line arrives after the first line; its text runs up to and including that blank line |
| LineStream.LinesOfFrame | bash_stream.py:74 | the shell's reply `ENC\n\n` is the two lines `ENC\n` and a blank line, or two blank lines when `ENC` is empty |
| LineStream.ReadFrameOfPayload | bash_stream.py:81-89 | for non-empty `ENC` without a line break, the reader takes exactly `ENC\n` and the blank line and leaves the rest |
| LineStream.ReadFrameOfEmptyPayload | bash_stream.py:83-89 | for empty `ENC`, the reader stops at the first blank line and leaves the second one unread |
| LineStream.ReadFramePayloadFirstOfFrame | bash_stream.py:81-89 | the corrected reader takes exactly `ENC\n\n` for every `ENC` without a line break, empty or not |
| CommandEnvelope.Foreground | bash_stream.py:68-69 | the command with its final `&` removed, or unchanged when it has none |
| CommandEnvelope.RedirectAsWritten | bash_stream.py:68-71 | as written: the stripped command is kept in front; a final `&` is replaced by `2>&1 &`, and otherwise ` 2>&1` is appended; the result is in the background exactly when the command was; no line break is added |
| CommandEnvelope.Redirect | bash_stream.py:68-71 | corrected: the same, except that a final `&` is replaced by ` 2>&1 &`, so a blank always separates the redirection from the command |
| CommandEnvelope.RedirectSeparates | bash_stream.py:68-71 | the corrected redirection equals the one as written for foreground commands and adds exactly one blank before `2>&1` for background ones; as written, that blank is missing exactly for background commands |
| CommandEnvelope.WithTimeout | bash_stream.py:72-73 | without a timeout the command is unchanged; with one, no line break is added or removed |
| CommandEnvelope.TimeoutKeepsCommand | bash_stream.py:72-73 | with timeout `t` the command is `timeout t sh -c` followed by the quoted command, and the shell unquotes that argument back to exactly the command |
| CommandEnvelope.EnvelopeAsWritten | bash_stream.py:65-74 | the envelope as written is the prologue, the bounded command redirected as written, and the epilogue, and it ends in a line terminator |
| CommandEnvelope.Envelope | bash_stream.py:65-74 | the same with the corrected redirection |
| CommandEnvelope.EnvelopeIsOneLine | bash_stream.py:65-74 | either envelope is exactly one line (its final terminator is its only one) if and only if the stripped command has no line break |
| CommandEnvelope.EnvelopeLines | bash_stream.py:74 | text between two pieces with no line break, followed by a terminator, is one line exactly when it has no line break itself |
| CommandEnvelope.EnvelopeOfStripped | bash_stream.py:65 | either envelope depends on the command only through its stripped text |
| CommandEnvelope.BackgroundWithoutSpace | bash_stream.py:68-69 | as written, `sleep 1&` is rewritten to `sleep 12>&1 &`; corrected, to `sleep 1 2>&1 &` |
| BashSession.ParseStatus | bash_stream.py:95-96 | a status line that is blank after stripping is rejected |
| BashSession.StatusOutcome | bash_stream.py:95-101 | the call returns the parsed status with the decoded output, or raises `ValueError` carrying the stripped line |
| BashSession.AfterFrame | bash_stream.py:85-96 | a pipe that never completes the frame blocks; a frame that does not decode raises the decoding error before the status query is written; otherwise exactly the status query is written and the decoding error is not raised; a returned output is the decoding of the frame |
| BashSession.ExecuteAsWritten | bash_stream.py:61-96 | on a dead session the result is `(-1, "")` and nothing is written; on a live one the envelope as written is written, then possibly `echo $?`, and nothing else; a call that returns has written both, in that order |
| BashSession.Execute | bash_stream.py:61-96 | the same guarantees for `execute` with the corrected envelope and frame reader |
| BashSession.Terminate | bash_stream.py:48-52 | on a live session exactly `exit` is appended to the log; on a dead one nothing changes; liveness and the pipe are untouched |
| BashSession.StatusReplyParses | bash_stream.py:93-96 | the line `echo $?` prints for status `n` parses back to `n` |
| BashSession.AsWrittenOfFrame | bash_stream.py:77-96 | after a frame that decodes, both writes happen and the first line behind the frame is taken as the status line |
| BashSession.ExecuteOfFrame | bash_stream.py:77-96 | the same with the corrected reader |
| BashSession.FrameOfOutput | bash_stream.py:74-90 | for non-empty output the reader takes both lines of the reply, and the text decodes to the output |
| BashSession.FrameOfAnyOutput | bash_stream.py:74-90 | the corrected reader takes both lines of the reply for every output, and the text decodes to the output |
| BashSession.AsWrittenWithOutput | bash_stream.py:74-96 | for non-empty output the call writes the envelope and `echo $?`, returns exactly the bytes the command wrote, takes the status from the first status line, and leaves only what follows it unread |
| BashSession.AsWrittenWithoutOutput | bash_stream.py:74-96 | for empty output the second blank line is read as the status line; it strips to `""`, `int()` raises, and the real status line is left in the pipe |
| BashSession.StaleFrameRead | bash_stream.py:83-89 | a stale status line in front of the next reply is read as the first line of the next frame |
| BashSession.StaleFrameDecode | bash_stream.py:83-90 | a stale status below 1000 in front of encoded output leaves a frame that decodes exactly when the status has one digit and the output's length is not a multiple of three, or two digits and the length is one past a multiple of three; it never decodes to the output |
| BashSession.StaleStatusBreaksNextCall | bash_stream.py:83-94 | as written, when the stale frame does not decode, the next call with non-empty output raises the decoding error, never writes its status query, and leaves the pipe empty |
| BashSession.StaleStatusCorruptsNextCall | bash_stream.py:83-96 | as written, when the stale frame does decode, the next call writes both its envelope and `echo $?`, takes its own status line, and returns bytes that are not its output |
| BashSession.StaleStatusLosesOutput | bash_stream.py:83-96 | as written, with a stale status in front of the frame, the next call never returns the output its command wrote |
| BashSession.ExecuteRoundTrip | bash_stream.py:74-96 | with the corrected reader, every output, empty or not, comes back exactly, with the status taken from the first status line |
| BashSession.ExecuteInStep | bash_stream.py:93-101 | with the corrected reader, a command that exits with `n` returns `(n, output)` and leaves the pipe empty for the next call |
| BashSession.DeadSessionIsInert | bash_stream.py:48-63 | once the process is gone, `execute` returns `(-1, "")` and writes nothing, and `terminate` changes nothing |

## Left out

- Process creation, the environment copy, the `Popen` flags and `pid` (`bash_stream.py:24-46`) are OS plumbing. The session starts from a given record.
- Liveness is a flag supplied from outside, since `poll()` observes the operating system. The signal sent by `self.base.terminate()` is also left out. Nothing claims the process is dead right after `terminate`.
- The `readable()` busy-wait and the end-of-file behaviour of `readline` are stream-buffering details.
  - The model does not tell a pipe that closed apart from one that stays silent.
  - A frame that never ends, and a status line that never comes, are both the `Blocked` outcome.
  - On a closed pipe Python's status read would instead get `""` and raise `ValueError`.
- Shell semantics are out of scope. That covers what `set -euo pipefail`, `timeout`, `sh -c` and `$?` do, including which pipeline stage's status `$?` reports. The shell's replies are parameters.
- UTF-8 decoding of the output for `text=True` (`bash_stream.py:98-99`) is left out: the output is modelled as bytes.
- On a dead session Python returns the `str` `""`. The model returns empty bytes.
- The logging prints (`bash_stream.py:62, 76, 102`) are left out.
- Also left out: the unused `check_return` parameter, the unused `LOG_TYPE` enum and the `main` demo driver.
- The timeout's default value of 60 is not modelled. The timeout is always passed explicitly, as `Option<int>`.
- The decoder follows `binascii.a2b_base64` of CPython 3.11 and later. Earlier versions look ahead when they meet padding and accept or refuse some texts differently; that variant is not modelled. The `validate=True` mode is not used by `execute` and is not modelled.
- PyText.ParseInt: does not model underscores between digits or non-ASCII decimal digits. Both are accepted by Python's `int()` but cannot occur in a status line.
- Universal-newline translation of `\r\n` by the text-mode pipe is not modelled. Lines end in `\n` only.

## Findings

| source | as written | input that shows it | evidently intended | confidence | as-written member | corrected member |
|---|---|---|---|---|---|---|
| bash_stream.py:85-89 | the read loop stops at the first blank line, which is already the payload line when the command printed nothing | a command with no output (`true`): the shell answers with two blank lines, then the status line | the comment at lines 81-82 says the second `echo` makes the blank line a safe terminator, so the payload line was meant to be consumed whatever it holds; as written, the status read gets the second blank line, `int("")` raises, and the real status line desynchronises the next call, which then raises or returns wrong bytes | not executed | BashSession.AsWrittenWithoutOutput | BashSession.ExecuteRoundTrip |
| bash_stream.py:68-69 | a final `&` is replaced by `2>&1 &` with no blank in front, so the redirection is glued to the command's last word | `sleep 1&` becomes `sleep 12>&1 &`, where `12>&1` redirects descriptor 12 and `sleep` loses its argument | the ` 2>&1` of line 71 shows that the redirection was meant to be a word of its own: `sleep 1 2>&1 &` | not executed | CommandEnvelope.BackgroundWithoutSpace | CommandEnvelope.RedirectSeparates |

=== FILE: base64.dfy ===
/** The transport encoding of the framing protocol: the standard base64
    alphabet and padding of section 4 of RFC 4648.

    The shell side encodes with `base64 --wrap 0`: one unbroken line, no
    line breaks inside. The controller decodes with `base64.b64decode` in
    its default mode. That refuses a `str` holding anything but ASCII and
    hands the rest to CPython's `binascii.a2b_base64` in its non-strict
    mode: a scanner that takes the text one character at a time, skips
    every character outside the alphabet, skips padding that comes too
    early in a group, and stops, successfully, at padding that completes a
    group. `Decoder`, `Step` and `Run` follow that scanner. */
module Base64 {
  import opened Wrappers

  type byte = b: int | 0 <= b < 256

  /** A six-bit value: what one character of the alphabet stands for. */
  type sextet = x: int | 0 <= x < 64

  /** A position in a group of four characters. */
  type quarter = q: int | 0 <= q < 4

  /** The 64 characters of the alphabet of section 4 of RFC 4648. */
  predicate IsSymbol(c: char) {
    ('A' <= c <= 'Z') || ('a' <= c <= 'z') || ('0' <= c <= '9') || c == '+' || c == '/'
  }

  const Pad: char := '='

  /** The character that stands for a six-bit value. */
  function Symbol(v: sextet): (c: char)
    ensures IsSymbol(c)
  {
    if v < 26 then ('A' as int + v) as char
    else if v < 52 then ('a' as int + (v - 26)) as char
    else if v < 62 then ('0' as int + (v - 52)) as char
    else if v == 62 then '+'
    else '/'
  }

  /** The six-bit value a character of the alphabet stands for. */
  function Value(c: char): (v: sextet)
    requires IsSymbol(c)
    ensures Symbol(v) == c
  {
    if 'A' <= c <= 'Z' then c as int - 'A' as int
    else if 'a' <= c <= 'z' then c as int - 'a' as int + 26
    else if '0' <= c <= '9' then c as int - '0' as int + 52
    else if c == '+' then 62
    else 63
  }

  /** Distinct values have distinct characters, so reading a character
      gives back the value that was written. */
  lemma ValueOfSymbol(v: sextet)
    ensures Value(Symbol(v)) == v
  {
  }

  /** Three bytes as four alphabet characters, six bits each, most
      significant first. */
  function Group(a: byte, b: byte, c: byte): (g: string)
    ensures |g| == 4 && forall i :: 0 <= i < 4 ==> IsSymbol(g[i])
  {
    [Symbol(First(a)), Symbol(Second(a, b)), Symbol(Third(b, c)), Symbol(Fourth(c))]
  }

  /** The four six-bit values of a group of bytes a, b, c; a short group
      is encoded as if the missing bytes were zero. */
  function First(a: byte): sextet { a / 4 }
  function Second(a: byte, b: byte): sextet { a % 4 * 16 + b / 16 }
  function Third(b: byte, c: byte): sextet { b % 16 * 4 + c / 64 }
  function Fourth(c: byte): sextet { c % 64 }

  /** Base64 encoding with padding: every three bytes become four
      characters, most significant bits first, and a final one or two
      bytes become four characters ending in two or one padding
      characters. The result is made only of alphabet characters and
      padding; it is empty exactly when there is nothing to encode, and
      having no line break it can never contain the blank line that ends a
      frame. */
  function Encode(bs: seq<byte>): (r: string)
    ensures |r| % 4 == 0
    ensures r == [] <==> bs == []
    ensures forall i :: 0 <= i < |r| ==> IsSymbol(r[i]) || r[i] == Pad
    ensures '\n' !in r
    decreases |bs|
  {
    if |bs| == 0 then ""
    else if |bs| == 1 then [Symbol(First(bs[0])), Symbol(Second(bs[0], 0)), Pad, Pad]
    else if |bs| == 2 then
      [Symbol(First(bs[0])), Symbol(Second(bs[0], bs[1])), Symbol(Third(bs[1], 0)), Pad]
    else Group(bs[0], bs[1], bs[2]) + Encode(bs[3..])
  }

  /** How many padding characters end the encoding of `n` bytes. */
  function PadCount(n: nat): nat {
    (3 - n % 3) % 3
  }

  /** Padding comes only at the end of the encoding, exactly as many
      characters as the last group is short of three bytes; everything
      before it is alphabet. */
  lemma {:induction false} EncodePadding(bs: seq<byte>)
    ensures PadCount(|bs|) <= |Encode(bs)|
    ensures forall i :: 0 <= i < |Encode(bs)| - PadCount(|bs|) ==> IsSymbol(Encode(bs)[i])
    ensures forall i :: |Encode(bs)| - PadCount(|bs|) <= i < |Encode(bs)| ==> Encode(bs)[i] == Pad
    decreases |bs|
  {
    if |bs| >= 3 {
      var rest := Encode(bs[3..]);
      var g := Group(bs[0], bs[1], bs[2]);
      var r := g + rest;
      assert Encode(bs) == r;
      EncodePadding(bs[3..]);
      var n := PadCount(|bs|);
      ThreeLess(|bs|);
      assert |r| == 4 + |rest|;
      forall i | 0 <= i < |r| - n
        ensures IsSymbol(r[i])
      {
        if i >= 4 {
          assert r[i] == rest[i - 4];
        }
      }
      forall i | |r| - n <= i < |r|
        ensures r[i] == Pad
      {
        assert r[i] == rest[i - 4];
      }
    }
  }

  /** The alphabet part of an encoding is two, three or four characters
      past a multiple of four for a last group of one, two or three
      bytes. */
  lemma AlphabetPartLength(len: nat, n: nat)
    requires len % 4 == 0 && PadCount(n) <= len
    requires len == 0 ==> n == 0
    ensures (len - PadCount(n)) % 4 == if n % 3 == 0 then 0 else n % 3 + 1
  {
  }

  lemma ThreeLess(n: nat)
    requires n >= 3
    ensures (n - 3) % 3 == n % 3 && PadCount(n - 3) == PadCount(n)
  {
  }

  /** Two six-bit values joined into the byte their bits straddle:
      `shift` is how many bits of the first value belong to the byte
      before. */
  function Join(x: sextet, y: sextet, shift: int): byte
    requires shift == 2 || shift == 4 || shift == 6
  {
    if shift == 2 then x * 4 + y / 16 else if shift == 4 then x % 16 * 16 + y / 4 else x % 4 * 64 + y
  }

  /** Joining the values of a group gives back its bytes. */
  lemma JoinFirst(a: byte, b: byte)
    ensures Join(First(a), Second(a, b), 2) == a
  {
  }

  lemma JoinSecond(a: byte, b: byte, c: byte)
    ensures Join(Second(a, b), Third(b, c), 4) == b
  {
    assert Second(a, b) % 16 == b / 16;
    assert Third(b, c) / 4 == b % 16;
  }

  lemma JoinThird(b: byte, c: byte)
    ensures Join(Third(b, c), Fourth(c), 6) == c
  {
    assert Third(b, c) % 4 == c / 64;
  }

  /** Where the scanner stands: how many characters of the current group
      it has taken (`quad`), the value of the last one (`last`), how many
      padding characters it has counted since (`pads`), and the bytes
      written so far. */
  datatype Decoder = Decoder(quad: quarter, last: sextet, pads: nat, out: seq<byte>)

  /** Either padding completed a group and the scan stopped, or the scanner
      is still taking characters. */
  datatype Scan = Stopped(out: seq<byte>) | Scanning(decoder: Decoder)

  const Start: Decoder := Decoder(0, 0, 0, [])

  /** The number of bytes written agrees with the position in the group:
      a group writes its bytes at its second, third and fourth
      characters. */
  predicate Tallies(d: Decoder) {
    |d.out| % 3 == (if d.quad == 0 then 0 else d.quad - 1)
  }

  /** Taking one alphabet character: every character but the first of a
      group completes a byte from its own bits and those of the character
      before it. */
  function Take(d: Decoder, v: sextet): (e: Decoder)
    ensures e.quad == (d.quad + 1) % 4 && e.pads == 0
    ensures |e.out| == |d.out| + (if d.quad == 0 then 0 else 1)
    ensures Tallies(d) ==> Tallies(e)
  {
    if d.quad == 0 then Decoder(1, v, 0, d.out)
    else if d.quad == 1 then Decoder(2, v, 0, d.out + [Join(d.last, v, 2)])
    else if d.quad == 2 then Decoder(3, v, 0, d.out + [Join(d.last, v, 4)])
    else Decoder(0, 0, 0, d.out + [Join(d.last, v, 6)])
  }

  /** One character of the scan. Padding in the first two positions of a
      group is skipped; padding after the third character is counted, and
      the padding that brings the group to four ends the scan. Characters
      outside the alphabet are skipped. */
  function Step(d: Decoder, c: char): Scan {
    if c == Pad then
      if d.quad >= 2 && d.quad + d.pads + 1 >= 4 then Stopped(d.out)
      else if d.quad >= 2 then Scanning(d.(pads := d.pads + 1))
      else Scanning(d)
    else if IsSymbol(c) then Scanning(Take(d, Value(c)))
    else Scanning(d)
  }

  /** The scan of a whole text. */
  function Run(s: string, d: Decoder): Scan
    decreases |s|
  {
    if s == [] then Scanning(d)
    else
      match Step(d, s[0])
      case Stopped(out) => Stopped(out)
      case Scanning(e) => Run(s[1..], e)
  }

  /** Going on with the scan of `s` from where a scan left off. */
  function Continue(r: Scan, s: string): Scan {
    match r
    case Stopped(_) => r
    case Scanning(d) => Run(s, d)
  }

  predicate IsAscii(s: string) {
    forall i :: 0 <= i < |s| ==> s[i] as int < 128
  }

  /** `base64.b64decode` of a `str` in its default, non-validating mode.
      Text holding a character outside ASCII is refused (Python raises
      `ValueError`). Otherwise the scan decides: padding that ends it gives
      the bytes written so far; a scan that reaches the end of the text
      succeeds only at the start of a group (Python raises
      `binascii.Error` otherwise). */
  function Decode(s: string): (r: Option<seq<byte>>)
    ensures !IsAscii(s) ==> r == None
    ensures IsAscii(s) && Run(s, Start).Stopped? ==> r == Some(Run(s, Start).out)
    ensures IsAscii(s) && Run(s, Start).Scanning? ==>
      (r.Some? <==> Run(s, Start).decoder.quad == 0)
    ensures IsAscii(s) && Run(s, Start).Scanning? && Run(s, Start).decoder.quad == 0 ==>
      r == Some(Run(s, Start).decoder.out)
  {
    if !IsAscii(s) then None else Finish(Run(s, Start))
  }

  /** The end of the text: a scan that stopped at padding succeeds, one
      that ran out of text succeeds only on a group boundary. */
  function Finish(r: Scan): Option<seq<byte>> {
    match r
    case Stopped(out) => Some(out)
    case Scanning(d) => if d.quad == 0 then Some(d.out) else None
  }

  /** Scanning text in two parts: the scan of the second part starts where
      the scan of the first left off, unless padding already ended it. */
  lemma {:induction false} RunAppend(a: string, b: string, d: Decoder)
    ensures Run(a + b, d) == Continue(Run(a, d), b)
    decreases |a|
  {
    if a == [] {
      assert a + b == b;
    } else {
      assert (a + b)[0] == a[0];
      assert (a + b)[1..] == a[1..] + b;
      match Step(d, a[0])
      case Stopped(out) =>
      case Scanning(e) => RunAppend(a[1..], b, e);
    }
  }

  lemma RunCons(c: char, rest: string, d: Decoder)
    ensures Run([c] + rest, d) == Continue(Step(d, c), rest)
  {
    assert ([c] + rest)[0] == c;
    assert ([c] + rest)[1..] == rest;
  }

  /** Line terminators leave the scanner where it is. */
  lemma {:induction false} RunTerminators(t: string, d: Decoder)
    requires forall i :: 0 <= i < |t| ==> t[i] == '\n'
    ensures Run(t, d) == Scanning(d)
    decreases |t|
  {
    if t != [] {
      assert forall i :: 0 <= i < |t[1..]| ==> t[1..][i] == t[i + 1];
      RunTerminators(t[1..], d);
    }
  }

  /** Alphabet characters move the scanner on by one position each, keep
      the count of bytes in step with the position, and reset the padding
      count. */
  lemma {:induction false} RunSymbols(s: string, d: Decoder)
    requires forall i :: 0 <= i < |s| ==> IsSymbol(s[i])
    ensures Run(s, d).Scanning?
    ensures Run(s, d).decoder.quad == (d.quad + |s|) % 4
    ensures Tallies(d) ==> Tallies(Run(s, d).decoder)
    ensures s == [] ==> Run(s, d).decoder == d
    ensures s != [] ==> Run(s, d).decoder.pads == 0
    decreases |s|
  {
    if s != [] {
      var e := Take(d, Value(s[0]));
      assert forall i :: 0 <= i < |s[1..]| ==> s[1..][i] == s[i + 1];
      RunSymbols(s[1..], e);
    }
  }

  /** The padding that ends an encoding, met with no padding counted yet:
      skipped before the third character of a group, and ending the scan
      once it completes the group. */
  lemma RunPadding(p: string, d: Decoder)
    requires p == "" || p == "=" || p == "=="
    requires d.pads == 0
    ensures d.quad < 2 || p == "" ==> Run(p, d) == Scanning(d)
    ensures d.quad == 3 && p != "" ==> Run(p, d) == Stopped(d.out)
    ensures d.quad == 2 && p == "=" ==> Run(p, d) == Scanning(d.(pads := 1))
    ensures d.quad == 2 && p == "==" ==> Run(p, d) == Stopped(d.out)
  {
    if p != "" {
      RunCons(Pad, p[1..], d);
      assert p == [Pad] + p[1..];
      if p == "==" {
        assert p[1..] == [Pad] + [];
        RunCons(Pad, [], d);
        RunCons(Pad, [], d.(pads := 1));
      }
    }
  }

  lemma RunSymbol(v: sextet, rest: string, d: Decoder)
    ensures Run([Symbol(v)] + rest, d) == Run(rest, Take(d, v))
  {
    ValueOfSymbol(v);
    RunCons(Symbol(v), rest, d);
  }

  /** A whole group of four characters taken from the start of a group
      writes back the three bytes it encodes. */
  lemma RunGroup(a: byte, b: byte, c: byte, rest: string, out: seq<byte>)
    ensures Run(Group(a, b, c) + rest, Decoder(0, 0, 0, out))
         == Run(rest, Decoder(0, 0, 0, out + [a, b, c]))
  {
    var x0, x1, x2, x3 := First(a), Second(a, b), Third(b, c), Fourth(c);
    JoinFirst(a, b);
    JoinSecond(a, b, c);
    JoinThird(b, c);
    var d0 := Decoder(0, 0, 0, out);
    var d1 := Take(d0, x0);
    var d2 := Take(d1, x1);
    var d3 := Take(d2, x2);
    assert Take(d3, x3) == Decoder(0, 0, 0, out + [a, b, c]);
    assert [Symbol(x0), Symbol(x1), Symbol(x2), Symbol(x3)] + rest
        == [Symbol(x0)] + ([Symbol(x1)] + ([Symbol(x2)] + ([Symbol(x3)] + rest)));
    RunSymbol(x0, [Symbol(x1)] + ([Symbol(x2)] + ([Symbol(x3)] + rest)), d0);
    RunSymbol(x1, [Symbol(x2)] + ([Symbol(x3)] + rest), d1);
    RunSymbol(x2, [Symbol(x3)] + rest, d2);
    RunSymbol(x3, rest, d3);
  }

  /** The last group of one byte: two characters write the byte, and the
      second padding character ends the scan. */
  lemma RunLastOne(bs: seq<byte>, out: seq<byte>)
    requires |bs| == 1
    ensures Run(Encode(bs), Decoder(0, 0, 0, out)) == Stopped(out + bs)
  {
    var a := bs[0];
    var s := Encode(bs);
    assert out + [a] == out + bs;
    var x0, x1 := First(a), Second(a, 0);
    JoinFirst(a, 0);
    var d0 := Decoder(0, 0, 0, out);
    var d2 := Take(Take(d0, x0), x1);
    assert d2 == Decoder(2, x1, 0, out + [a]);
    assert s == [Symbol(x0)] + ([Symbol(x1)] + "==");
    RunSymbol(x0, [Symbol(x1)] + "==", d0);
    RunSymbol(x1, "==", Take(d0, x0));
    RunPadding("==", d2);
  }

  /** The last group of two bytes: three characters write them, and the
      padding character ends the scan. */
  lemma RunLastTwo(bs: seq<byte>, out: seq<byte>)
    requires |bs| == 2
    ensures Run(Encode(bs), Decoder(0, 0, 0, out)) == Stopped(out + bs)
  {
    var a, b := bs[0], bs[1];
    var s := Encode(bs);
    assert out + [a, b] == out + bs;
    var x0, x1, x2 := First(a), Second(a, b), Third(b, 0);
    JoinFirst(a, b);
    JoinSecond(a, b, 0);
    var d0 := Decoder(0, 0, 0, out);
    var d1 := Take(d0, x0);
    var d2 := Take(d1, x1);
    var d3 := Take(d2, x2);
    assert d3 == Decoder(3, x2, 0, out + [a, b]);
    assert s == [Symbol(x0)] + ([Symbol(x1)] + ([Symbol(x2)] + "="));
    RunSymbol(x0, [Symbol(x1)] + ([Symbol(x2)] + "="), d0);
    RunSymbol(x1, [Symbol(x2)] + "=", d1);
    RunSymbol(x2, "=", d2);
    RunPadding("=", d3);
  }

  /** Scanning an encoding from the start of a group writes back exactly
      the bytes encoded. A final short group ends the scan at its padding;
      otherwise the scanner is at the start of a group again. */
  lemma {:induction false} RunEncode(bs: seq<byte>, out: seq<byte>)
    ensures Run(Encode(bs), Decoder(0, 0, 0, out))
         == if |bs| % 3 == 0 then Scanning(Decoder(0, 0, 0, out + bs)) else Stopped(out + bs)
    decreases |bs|
  {
    if |bs| == 0 {
      assert out + bs == out;
    } else if |bs| <= 2 {
      if |bs| == 1 {
        RunLastOne(bs, out);
      } else {
        RunLastTwo(bs, out);
      }
    } else {
      var rest := Encode(bs[3..]);
      var head := [bs[0], bs[1], bs[2]];
      assert Encode(bs) == Group(bs[0], bs[1], bs[2]) + rest;
      RunGroup(bs[0], bs[1], bs[2], rest, out);
      RunEncode(bs[3..], out + head);
      ThreeLess(|bs|);
      SplitHead(out, bs);
    }
  }

  lemma SplitHead(out: seq<byte>, bs: seq<byte>)
    requires |bs| >= 3
    ensures out + [bs[0], bs[1], bs[2]] + bs[3..] == out + bs
  {
    assert bs == [bs[0], bs[1], bs[2]] + bs[3..];
  }

  /** What the controller decodes is the encoded payload followed by the
      line terminators of the frame; decoding it gives back exactly the
      bytes the command wrote. */
  lemma DecodeEncode(bs: seq<byte>, terminators: string)
    requires forall i :: 0 <= i < |terminators| ==> terminators[i] == '\n'
    ensures Decode(Encode(bs) + terminators) == Some(bs)
  {
    var e := Encode(bs);
    var s := e + terminators;
    assert IsAscii(s) by {
      forall i | 0 <= i < |s|
        ensures s[i] as int < 128
      {
        if i < |e| {
          assert s[i] == e[i];
        } else {
          assert s[i] == terminators[i - |e|];
        }
      }
    }
    RunAppend(e, terminators, Start);
    RunEncode(bs, []);
    assert [] + bs == bs;
    if |bs| % 3 == 0 {
      RunTerminators(terminators, Decoder(0, 0, 0, bs));
    }
  }

  /** Stray alphabet characters in front of an encoding shift every later
      group. One to three of them, then a line terminator, the encoding and
      two more terminators: the text decodes exactly when there is one
      stray character and the last group is short, or two of them and the
      last group holds one byte. When it decodes, the number of bytes
      differs from that of the bytes encoded, even modulo three. */
  lemma DecodeAfterStray(x: string, bs: seq<byte>)
    requires 1 <= |x| <= 3
    requires forall i :: 0 <= i < |x| ==> IsSymbol(x[i])
    ensures Decode(x + "\n" + Encode(bs) + "\n\n").Some?
        <==> (|x| == 1 && |bs| % 3 != 0) || (|x| == 2 && |bs| % 3 == 1)
    ensures Decode(x + "\n" + Encode(bs) + "\n\n").Some? ==>
      |Decode(x + "\n" + Encode(bs) + "\n\n").value| % 3 != |bs| % 3
  {
    EncodePadding(bs);
    StrayDecode(x, Encode(bs), |bs|);
  }

  /** DecodeAfterStray for any text e shaped like the encoding of n
      bytes. */
  lemma StrayDecode(x: string, e: string, n: nat)
    requires 1 <= |x| <= 3
    requires forall i :: 0 <= i < |x| ==> IsSymbol(x[i])
    requires |e| % 4 == 0 && (e == [] <==> n == 0) && PadCount(n) <= |e|
    requires forall i :: 0 <= i < |e| - PadCount(n) ==> IsSymbol(e[i])
    requires forall i :: |e| - PadCount(n) <= i < |e| ==> e[i] == Pad
    ensures Decode(x + "\n" + e + "\n\n").Some?
        <==> (|x| == 1 && n % 3 != 0) || (|x| == 2 && n % 3 == 1)
    ensures Decode(x + "\n" + e + "\n\n").Some? ==>
      |Decode(x + "\n" + e + "\n\n").value| % 3 != n % 3
  {
    var d2, pads := StrayScan(x, e, PadCount(n));
    FinishTail(d2, pads);
    StrayArithmetic(|x|, |e|, n, d2.quad, |pads|);
  }

  /** Decoding the text comes down to where the scanner stands when it
      reaches the p padding characters that end the encoding e, after the
      stray characters and the alphabet part. */
  lemma StrayScan(x: string, e: string, p: nat) returns (d2: Decoder, pads: string)
    requires forall i :: 0 <= i < |x| ==> IsSymbol(x[i])
    requires x != [] && p <= 2 && p <= |e|
    requires forall i :: 0 <= i < |e| - p ==> IsSymbol(e[i])
    requires forall i :: |e| - p <= i < |e| ==> e[i] == Pad
    ensures Decode(x + "\n" + e + "\n\n") == Finish(Run(pads + "\n\n", d2))
    ensures pads == "" || pads == "=" || pads == "=="
    ensures |pads| == p
    ensures d2.quad == (|x| + |e| - p) % 4 && d2.pads == 0 && Tallies(d2)
  {
    var data := e[..|e| - p];
    pads := e[|e| - p..];
    assert e == data + pads;
    assert forall i :: 0 <= i < |data| ==> IsSymbol(data[i]);
    assert |pads| == p && forall i :: 0 <= i < |pads| ==> pads[i] == Pad;
    PaddingText(pads);
    var text := x + "\n" + e + "\n\n";
    Regroup(x, e, data, pads, text);
    StrayTextIsAscii(x, e, text);
    d2 := StrayRun(x, data, pads + "\n\n");
    assert Run(text, Start) == Run(pads + "\n\n", d2);
  }

  lemma Regroup(x: string, e: string, data: string, pads: string, text: string)
    requires e == data + pads && text == x + "\n" + e + "\n\n"
    ensures text == x + ("\n" + (data + (pads + "\n\n")))
  {
  }

  /** How the scan of the padding and terminators ends, in terms of the
      scanner's position when it reaches them. */
  lemma FinishTail(d: Decoder, pads: string)
    requires pads == "" || pads == "=" || pads == "=="
    requires d.pads == 0 && Tallies(d)
    ensures Finish(Run(pads + "\n\n", d)).Some?
        <==> d.quad == 0 || (d.quad == 3 && |pads| != 0) || (d.quad == 2 && |pads| == 2)
    ensures Finish(Run(pads + "\n\n", d)).Some? ==>
      |Finish(Run(pads + "\n\n", d)).value| % 3 == (if d.quad == 0 then 0 else d.quad - 1)
  {
    RunTail(d, pads);
  }

  /** A stray `0` in front of the encoding `QQ==` of the byte 65: the
      digit opens a group, the two `Q`s write two bytes, and the first
      padding character completes the group, so the text decodes, to bytes
      that are not the byte encoded. */
  lemma StrayDigitDecodes()
    ensures Encode([65]) == "QQ=="
    ensures Decode("0\nQQ==\n\n") == Some([0xd1, 0x04])
  {
    assert Encode([65]) == "QQ==" by {
      assert First(65) == 16 && Second(65, 0) == 16;
    }
    var d1 := Decoder(1, 52, 0, []);
    var d2 := Decoder(2, 16, 0, [0xd1]);
    var d3 := Decoder(3, 16, 0, [0xd1, 0x04]);
    assert Step(Start, '0') == Scanning(d1);
    assert Step(d1, '\n') == Scanning(d1);
    assert Step(d1, 'Q') == Scanning(d2);
    assert Step(d2, 'Q') == Scanning(d3);
    assert Step(d3, '=') == Stopped([0xd1, 0x04]);
  }

  /** The position arithmetic behind DecodeAfterStray: k stray
      characters, then an encoding of n bytes of length len whose last p
      characters are padding. */
  lemma StrayArithmetic(k: nat, len: nat, n: nat, q: int, p: nat)
    requires 1 <= k <= 3
    requires len % 4 == 0 && p == PadCount(n) <= len
    requires len == 0 ==> n == 0
    requires q == (k + len - p) % 4
    ensures (q == 0 || (q == 3 && p != 0) || (q == 2 && p == 2))
        <==> (k == 1 && n % 3 != 0) || (k == 2 && n % 3 == 1)
    ensures (q == 0 || (q == 3 && p != 0) || (q == 2 && p == 2)) ==>
      (if q == 0 then 0 else q - 1) != n % 3
  {
    AlphabetPartLength(len, n);
    QuarterSum(len - p, k);
  }

  lemma PaddingText(pads: string)
    requires |pads| <= 2 && forall i :: 0 <= i < |pads| ==> pads[i] == Pad
    ensures pads == "" || pads == "=" || pads == "=="
  {
  }

  /** The stray characters and the alphabet part of the encoding move the
      scanner on, the terminator between them leaves it where it is. */
  lemma StrayRun(x: string, data: string, tail: string) returns (d2: Decoder)
    requires forall i :: 0 <= i < |x| ==> IsSymbol(x[i])
    requires forall i :: 0 <= i < |data| ==> IsSymbol(data[i])
    requires x != []
    ensures Run(x + ("\n" + (data + tail)), Start) == Run(tail, d2)
    ensures d2.quad == (|x| + |data|) % 4 && d2.pads == 0 && Tallies(d2)
  {
    RunSymbols(x, Start);
    var d1 := Run(x, Start).decoder;
    RunSymbols(data, d1);
    d2 := Run(data, d1).decoder;
    QuarterSum(|x|, |data|);
    RunAppend(x, "\n" + (data + tail), Start);
    RunAppend("\n", data + tail, d1);
    RunTerminators("\n", d1);
    RunAppend(data, tail, d1);
  }

  lemma QuarterSum(a: nat, b: nat)
    ensures (a % 4 + b) % 4 == (a + b) % 4
  {
  }

  /** The padding and the two terminators at the end of the text: the
      scan stops at padding that completes a group, and otherwise ends
      where the padding left it. */
  lemma RunTail(d: Decoder, pads: string)
    requires pads == "" || pads == "=" || pads == "=="
    requires d.pads == 0
    ensures Run(pads + "\n\n", d).Stopped? <==> (d.quad == 3 && pads != "") || (d.quad == 2 && pads == "==")
    ensures Run(pads + "\n\n", d).Stopped? ==> Run(pads + "\n\n", d).out == d.out
    ensures Run(pads + "\n\n", d).Scanning? ==>
      Run(pads + "\n\n", d).decoder.quad == d.quad && Run(pads + "\n\n", d).decoder.out == d.out
  {
    RunAppend(pads, "\n\n", d);
    RunPadding(pads, d);
    if Run(pads, d).Scanning? {
      RunTerminators("\n\n", Run(pads, d).decoder);
    }
  }

  lemma StrayTextIsAscii(x: string, e: string, text: string)
    requires forall i :: 0 <= i < |x| ==> IsSymbol(x[i])
    requires forall i :: 0 <= i < |e| ==> IsSymbol(e[i]) || e[i] == Pad
    requires text == x + "\n" + e + "\n\n"
    ensures IsAscii(text)
  {
    forall i | 0 <= i < |text|
      ensures text[i] as int < 128
    {
      if i < |x| {
        assert text[i] == x[i];
      } else if |x| < i < |x| + 1 + |e| {
        assert text[i] == e[i - |x| - 1];
      }
    }
  }
}

=== FILE: bash_session.dfy ===
/** The session controller `BashInteractive`: one shell process, seen
    through a liveness flag, the log of everything written to its standard
    input, and the lines already in its output pipe that no read has taken
    yet. `execute` sends one envelope, reads the frame, decodes it, then
    asks for the exit status with a second write and reads one more line.

    The shell itself is a parameter: `reply` holds the lines it prints in
    answer to the envelope and `statusReply` the lines it prints in answer
    to the status query. Liveness is observed from outside (the process may
    exit at any time), so `terminate` does not change it. */
module BashSession {
  import opened Wrappers
  import opened PyText
  import opened Base64
  import opened LineStream
  import opened CommandEnvelope

  datatype Session = Session(alive: bool, written: seq<string>, unread: seq<string>)

  /** The exceptions `execute` lets escape: from decoding the frame,
      `binascii.Error` for bad padding or `ValueError` for text outside
      ASCII; from parsing the status line, `ValueError`. */
  datatype Failure = DecodeFailed | StatusNotInteger(text: string)

  /** How one call ends: it returns, raises, or never returns because the
      pipe never delivers what it waits for. */
  datatype Outcome = Returned(code: int, output: seq<byte>) | Raised(failure: Failure) | Blocked

  datatype Call = Call(session: Session, outcome: Outcome)

  /** The second write of `execute`: ask the shell for the last status. */
  const StatusQuery: string := "echo $?\n"

  /** What `terminate` writes before signalling the process. */
  const ExitDirective: string := "exit"

  /** What `execute` returns on a session whose process has exited. */
  const NotAlive: Outcome := Returned(-1, [])

  /** `int(line.strip())`. */
  function ParseStatus(line: string): (r: Option<int>)
    ensures Strip(line) == [] ==> r == None
  {
    ParseInt(Strip(line))
  }

  /** What the status line makes of a call whose output decoded to
      `output`: its exit code, or `ValueError` when it is not an integer. */
  function StatusOutcome(line: string, output: seq<byte>): (r: Outcome)
    ensures r.Returned? ==> ParseStatus(line) == Some(r.code) && r.output == output
    ensures r.Raised? ==> ParseStatus(line) == None && r.failure == StatusNotInteger(Strip(line))
    ensures !r.Blocked?
  {
    match ParseStatus(line)
    case Some(code) => Returned(code, output)
    case None => Raised(StatusNotInteger(Strip(line)))
  }

  /** Everything after the frame has been read: decode it, write the status
      query, read one line and parse it. A decoding failure raises before
      the status query is written; a pipe that runs dry blocks. */
  function AfterFrame(s: Session, frame: Option<Frame>, statusReply: seq<string>): (r: Call)
    ensures r.session.alive == s.alive
    ensures r.outcome == Raised(DecodeFailed) ==> r.session.written == s.written
    ensures !r.outcome.Blocked? && r.outcome != Raised(DecodeFailed) ==>
      r.session.written == s.written + [StatusQuery]
    ensures r.session.written == s.written || r.session.written == s.written + [StatusQuery]
    ensures r.outcome.Returned? ==> frame.Some? && Decode(frame.value.text) == Some(r.outcome.output)
    ensures frame.None? ==> r.outcome.Blocked?
    ensures frame.Some? && Decode(frame.value.text) == None ==> r.outcome == Raised(DecodeFailed)
    ensures frame.Some? && Decode(frame.value.text).Some? ==>
      r.session.written == s.written + [StatusQuery] && r.outcome != Raised(DecodeFailed)
  {
    match frame
    case None => Call(s.(unread := []), Blocked)
    case Some(f) =>
      match Decode(f.text)
      case None => Call(s.(unread := f.rest), Raised(DecodeFailed))
      case Some(output) =>
        var queried := s.(written := s.written + [StatusQuery]);
        var pipe := f.rest + statusReply;
        if pipe == [] then Call(queried.(unread := []), Blocked)
        else Call(queried.(unread := pipe[1..]), StatusOutcome(pipe[0], output))
  }

  /** `execute` as written. On a dead session it returns `(-1, "")` and
      writes nothing. On a live one it writes the envelope as written, with
      the redirection glued to a final `&`, reads the frame
      up to the first blank line, and goes on as `AfterFrame` says; the
      status query, when it is written, comes after the envelope and the
      frame read. */
  function ExecuteAsWritten(s: Session, command: string, timeout: Option<int>,
                            reply: seq<string>, statusReply: seq<string>): (r: Call)
    ensures !s.alive ==> r == Call(s, NotAlive)
    ensures r.session.alive == s.alive
    ensures s.alive ==>
      || r.session.written == s.written + [EnvelopeAsWritten(command, timeout)]
      || r.session.written == s.written + [EnvelopeAsWritten(command, timeout), StatusQuery]
    ensures s.alive && r.outcome.Returned? ==>
      r.session.written == s.written + [EnvelopeAsWritten(command, timeout), StatusQuery]
  {
    if !s.alive then Call(s, NotAlive)
    else
      var sent := s.(written := s.written + [EnvelopeAsWritten(command, timeout)]);
      var r := AfterFrame(sent, ReadFrame(s.unread + reply), statusReply);
      assert sent.written + [StatusQuery] == s.written + [EnvelopeAsWritten(command, timeout), StatusQuery];
      r
  }

  /** `execute` with both corrections: the redirection is a word of its
      own, and the payload line is taken whatever it holds before the blank
      line is awaited. Everything else is as written. */
  function Execute(s: Session, command: string, timeout: Option<int>,
                   reply: seq<string>, statusReply: seq<string>): (r: Call)
    ensures !s.alive ==> r == Call(s, NotAlive)
    ensures r.session.alive == s.alive
    ensures s.alive ==>
      || r.session.written == s.written + [Envelope(command, timeout)]
      || r.session.written == s.written + [Envelope(command, timeout), StatusQuery]
    ensures s.alive && r.outcome.Returned? ==>
      r.session.written == s.written + [Envelope(command, timeout), StatusQuery]
  {
    if !s.alive then Call(s, NotAlive)
    else
      var sent := s.(written := s.written + [Envelope(command, timeout)]);
      var r := AfterFrame(sent, ReadFramePayloadFirst(s.unread + reply), statusReply);
      assert sent.written + [StatusQuery] == s.written + [Envelope(command, timeout), StatusQuery];
      r
  }

  /** `terminate`: on a live session write `exit` (with no line terminator)
      and signal the process; on a dead one do nothing. Whether and when the
      process exits is observed later, through `alive`. */
  function Terminate(s: Session): (r: Session)
    ensures r.alive == s.alive && r.unread == s.unread
    ensures s.alive ==> r.written == s.written + [ExitDirective]
    ensures !s.alive ==> r == s
  {
    if s.alive then s.(written := s.written + [ExitDirective]) else s
  }

  /** The shell's answer to an envelope when the command wrote `output`:
      the encoded text on one line, then the blank line of the second
      `echo`. */
  function FrameReply(output: seq<byte>): seq<string> {
    Lines(Encode(output) + "\n\n")
  }

  /** The shell's answer to the status query when the last status was
      `code`. */
  function StatusReply(code: int): string {
    IntToDecimal(code) + "\n"
  }

  /** The status line the shell prints parses back to the status. */
  lemma StatusReplyParses(code: int)
    ensures ParseStatus(StatusReply(code)) == Some(code)
  {
    ParseIntToDecimal(code, '\n');
    StripLineEnd(IntToDecimal(code), '\n');
    StripUnchanged(IntToDecimal(code));
  }

  /** After a frame that decodes to `output`, the status query is written
      and the first line in the pipe behind the frame decides the outcome. */
  lemma AfterDecodedFrame(s: Session, f: Frame, output: seq<byte>, statusReply: seq<string>)
    requires Decode(f.text) == Some(output) && f.rest + statusReply != []
    ensures var pipe := f.rest + statusReply;
      AfterFrame(s, Some(f), statusReply)
        == Call(s.(written := s.written + [StatusQuery], unread := pipe[1..]),
                StatusOutcome(pipe[0], output))
  {
  }

  /** As written, on a live session whose reply holds a frame that decodes
      to `output`: both writes happen, and the first line behind the frame
      is taken as the status line. */
  lemma AsWrittenOfFrame(s: Session, command: string, timeout: Option<int>, reply: seq<string>,
                         f: Frame, output: seq<byte>, statusReply: seq<string>)
    requires s.alive && ReadFrame(s.unread + reply) == Some(f)
    requires Decode(f.text) == Some(output) && f.rest + statusReply != []
    ensures var r := ExecuteAsWritten(s, command, timeout, reply, statusReply);
      var pipe := f.rest + statusReply;
      && r.outcome == StatusOutcome(pipe[0], output)
      && r.session.written == s.written + [EnvelopeAsWritten(command, timeout), StatusQuery]
      && r.session.unread == pipe[1..]
  {
    var sent := s.(written := s.written + [EnvelopeAsWritten(command, timeout)]);
    AfterDecodedFrame(sent, f, output, statusReply);
  }

  /** The same for the corrected reader. */
  lemma ExecuteOfFrame(s: Session, command: string, timeout: Option<int>, reply: seq<string>,
                       f: Frame, output: seq<byte>, statusReply: seq<string>)
    requires s.alive && ReadFramePayloadFirst(s.unread + reply) == Some(f)
    requires Decode(f.text) == Some(output) && f.rest + statusReply != []
    ensures var r := Execute(s, command, timeout, reply, statusReply);
      var pipe := f.rest + statusReply;
      && r.outcome == StatusOutcome(pipe[0], output)
      && r.session.written == s.written + [Envelope(command, timeout), StatusQuery]
      && r.session.unread == pipe[1..]
  {
    var sent := s.(written := s.written + [Envelope(command, timeout)]);
    AfterDecodedFrame(sent, f, output, statusReply);
  }

  /** The frame the shell prints for a non-empty output: the reader as
      written takes both of its lines, and their text decodes to the
      output. */
  lemma FrameOfOutput(output: seq<byte>)
    requires output != []
    ensures ReadFrame(FrameReply(output)) == Some(Frame(Encode(output) + "\n\n", []))
    ensures Decode(Encode(output) + "\n\n") == Some(output)
  {
    DecodeEncode(output, "\n\n");
    ReadFrameOfOutput(output);
  }

  lemma ReadFrameOfOutput(output: seq<byte>)
    requires output != []
    ensures ReadFrame(FrameReply(output)) == Some(Frame(Encode(output) + "\n\n", []))
  {
    var enc := Encode(output);
    ReadFrameOfPayload(enc, []);
    assert Lines(enc + "\n\n") + [] == Lines(enc + "\n\n");
  }

  /** The same frame, empty or not, read by the corrected reader. */
  lemma FrameOfAnyOutput(output: seq<byte>)
    ensures ReadFramePayloadFirst(FrameReply(output)) == Some(Frame(Encode(output) + "\n\n", []))
    ensures Decode(Encode(output) + "\n\n") == Some(output)
  {
    DecodeEncode(output, "\n\n");
    ReadFramePayloadFirstOfOutput(output);
  }

  lemma ReadFramePayloadFirstOfOutput(output: seq<byte>)
    ensures ReadFramePayloadFirst(FrameReply(output)) == Some(Frame(Encode(output) + "\n\n", []))
  {
    var enc := Encode(output);
    ReadFramePayloadFirstOfFrame(enc, []);
    assert Lines(enc + "\n\n") + [] == Lines(enc + "\n\n");
  }

  /** As written, for a command that wrote something: both frame lines are
      read, the output decodes to exactly the bytes written, the next line
      is taken as the status, and only what follows it stays in the pipe. */
  lemma AsWrittenWithOutput(s: Session, command: string, timeout: Option<int>,
                            output: seq<byte>, statusReply: seq<string>)
    requires s.alive && s.unread == [] && output != [] && statusReply != []
    ensures var r := ExecuteAsWritten(s, command, timeout, FrameReply(output), statusReply);
      && r.outcome == StatusOutcome(statusReply[0], output)
      && r.session.written == s.written + [EnvelopeAsWritten(command, timeout), StatusQuery]
      && r.session.unread == statusReply[1..]
  {
    FrameOfOutput(output);
    assert s.unread + FrameReply(output) == FrameReply(output);
    var f := Frame(Encode(output) + "\n\n", []);
    assert f.rest + statusReply == statusReply;
    AsWrittenOfFrame(s, command, timeout, FrameReply(output), f, output, statusReply);
  }

  /** As written, for a command that wrote nothing: the encoded text is
      empty, so the first frame line is already blank and the reader stops
      there. The second blank line is then read as the status line; it
      strips to nothing, `int()` rejects it, and the real status line is
      left in the pipe for the next call. */
  lemma AsWrittenWithoutOutput(s: Session, command: string, timeout: Option<int>,
                               statusReply: seq<string>)
    requires s.alive && s.unread == []
    ensures var r := ExecuteAsWritten(s, command, timeout, FrameReply([]), statusReply);
      && r.outcome == Raised(StatusNotInteger(""))
      && r.session.written == s.written + [EnvelopeAsWritten(command, timeout), StatusQuery]
      && r.session.unread == statusReply
  {
    var reply := FrameReply([]);
    var f := Frame(Blank, [Blank]);
    EmptyFrame();
    assert s.unread + reply == reply;
    HeadTail(Blank, statusReply);
    AsWrittenOfFrame(s, command, timeout, reply, f, [], statusReply);
    var r := ExecuteAsWritten(s, command, timeout, reply, statusReply);
    assert r.outcome == StatusOutcome(Blank, []);
  }

  lemma HeadTail(line: string, rest: seq<string>)
    ensures ([line] + rest)[0] == line && ([line] + rest)[1..] == rest
  {
  }

  /** The frame of a silent command, read as written: the reader stops at
      the first blank line, which decodes to nothing, and the second blank
      line is not a status. */
  lemma EmptyFrame()
    ensures ReadFrame(FrameReply([])) == Some(Frame(Blank, [Blank]))
    ensures Decode(Blank) == Some([])
    ensures StatusOutcome(Blank, []) == Raised(StatusNotInteger(""))
  {
    EmptyFrameRead();
    DecodeEncode([], "\n");
    assert Encode([]) + "\n" == Blank;
    assert Strip(Blank) == [];
  }

  lemma EmptyFrameRead()
    ensures ReadFrame(FrameReply([])) == Some(Frame(Blank, [Blank]))
  {
    assert Encode([]) + "\n\n" == "\n\n";
    ReadFrameOfEmptyPayload([]);
    assert Lines("\n\n") + [] == Lines("\n\n");
    assert [Blank] + [] == [Blank];
  }

  /** As written, a frame that does not decode raises before the status
      query is written, and whatever followed the frame stays unread. */
  lemma AsWrittenOfBadFrame(s: Session, command: string, timeout: Option<int>, reply: seq<string>,
                            f: Frame, statusReply: seq<string>)
    requires s.alive && ReadFrame(s.unread + reply) == Some(f) && Decode(f.text) == None
    ensures var r := ExecuteAsWritten(s, command, timeout, reply, statusReply);
      && r.outcome == Raised(DecodeFailed)
      && r.session.written == s.written + [EnvelopeAsWritten(command, timeout)]
      && r.session.unread == f.rest
  {
  }

  /** The reader as written, with a stale status line `d` in front of a
      non-empty frame, takes the stale line as the first line of the
      frame. */
  lemma StaleFrameRead(d: string, output: seq<byte>)
    requires IsDigits(d)
    requires output != []
    ensures ReadFrame([d + "\n"] + FrameReply(output))
         == Some(Frame(d + "\n" + Encode(output) + "\n" + Blank, []))
  {
    var enc := Encode(output);
    LinesOfFrame(enc);
    var lines := [d + "\n", enc + "\n", Blank];
    assert [d + "\n"] + FrameReply(output) == lines;
    assert |lines[0]| >= 2 && |lines[1]| >= 2;
    assert FirstBlank(lines) == 2;
    assert lines[..3] == lines;
    assert Concat(lines[2..]) == Blank;
    assert Concat(lines[1..]) == enc + "\n" + Concat(lines[2..]);
    assert "" + Concat(lines) == d + "\n" + enc + "\n" + Blank;
  }

  /** Whether a stale exit status `code`, one to three digits on a line of
      its own, in front of the encoding of `n` bytes leaves a frame the
      decoder accepts. One digit with `n % 3 == 1` leaves three characters
      in the last group, and the first `=` completes it. One digit with
      `n % 3 == 2`, or two digits with `n % 3 == 1`, fill whole groups:
      the padding falls on a group boundary and is skipped, and the scan
      ends on a boundary. */
  predicate StaleFrameDecodes(code: int, n: nat) {
    (0 <= code < 10 && n % 3 != 0) || (10 <= code < 100 && n % 3 == 1)
  }

  /** A stale status in front of encoded output: the frame decodes exactly
      when StaleFrameDecodes says so, and then to bytes whose count differs
      from the output's modulo three, so never to the output itself. */
  lemma StaleFrameDecode(code: int, output: seq<byte>)
    requires 0 <= code < 1000
    ensures Decode(IntToDecimal(code) + "\n" + Encode(output) + "\n" + Blank).Some?
        <==> StaleFrameDecodes(code, |output|)
    ensures Decode(IntToDecimal(code) + "\n" + Encode(output) + "\n" + Blank) != Some(output)
  {
    var d := IntToDecimal(code);
    NatToDigitsLength(code);
    assert IsDigits(d);
    assert forall i :: 0 <= i < |d| ==> IsSymbol(d[i]) by {
      forall i | 0 <= i < |d|
        ensures IsSymbol(d[i])
      {
        assert IsDigit(d[i]);
      }
    }
    assert d + "\n" + Encode(output) + "\n" + Blank == d + "\n" + Encode(output) + "\n\n";
    DecodeAfterStray(d, output);
  }

  /** As written, the status line left behind by a silent command stays in
      front of the next frame. Unless StaleFrameDecodes holds, the next
      call's frame no longer decodes: the call raises, and the status query
      is never written. */
  lemma StaleStatusBreaksNextCall(s: Session, command: string, timeout: Option<int>,
                                  output: seq<byte>, code: int, statusReply: seq<string>)
    requires s.alive && s.unread == [StatusReply(code)] && 0 <= code < 1000 && output != []
    requires !StaleFrameDecodes(code, |output|)
    ensures var r := ExecuteAsWritten(s, command, timeout, FrameReply(output), statusReply);
      && r.outcome == Raised(DecodeFailed)
      && r.session.written == s.written + [EnvelopeAsWritten(command, timeout)]
      && r.session.unread == []
  {
    var d := IntToDecimal(code);
    var text := d + "\n" + Encode(output) + "\n" + Blank;
    StaleFrameRead(d, output);
    StaleFrameDecode(code, output);
    assert s.unread + FrameReply(output) == [d + "\n"] + FrameReply(output);
    AsWrittenOfBadFrame(s, command, timeout, FrameReply(output), Frame(text, []), statusReply);
  }

  /** When StaleFrameDecodes holds, the next call goes on silently with
      wrong bytes: both writes happen, the next call's own status line is
      taken as its status, and whatever it returns is not the output the
      command wrote. */
  lemma StaleStatusCorruptsNextCall(s: Session, command: string, timeout: Option<int>,
                                    output: seq<byte>, code: int, statusReply: seq<string>)
    requires s.alive && s.unread == [StatusReply(code)] && 0 <= code < 1000 && output != []
    requires StaleFrameDecodes(code, |output|) && statusReply != []
    ensures var r := ExecuteAsWritten(s, command, timeout, FrameReply(output), statusReply);
      && r.outcome != Raised(DecodeFailed) && !r.outcome.Blocked?
      && (r.outcome.Returned? ==> r.outcome.output != output)
      && r.session.written == s.written + [EnvelopeAsWritten(command, timeout), StatusQuery]
      && r.session.unread == statusReply[1..]
  {
    var d := IntToDecimal(code);
    var text := d + "\n" + Encode(output) + "\n" + Blank;
    StaleFrameRead(d, output);
    StaleFrameDecode(code, output);
    var f := Frame(text, []);
    var decoded := Decode(text).value;
    assert s.unread + FrameReply(output) == [d + "\n"] + FrameReply(output);
    assert f.rest + statusReply == statusReply;
    AsWrittenOfFrame(s, command, timeout, FrameReply(output), f, decoded, statusReply);
  }

  /** Either way, once a stale status sits in front of the next frame, the
      next call never returns the output its command wrote. */
  lemma StaleStatusLosesOutput(s: Session, command: string, timeout: Option<int>,
                               output: seq<byte>, code: int, statusReply: seq<string>)
    requires s.alive && s.unread == [StatusReply(code)] && 0 <= code < 1000 && output != []
    ensures var r := ExecuteAsWritten(s, command, timeout, FrameReply(output), statusReply);
      r.outcome.Returned? ==> r.outcome.output != output
  {
    var d := IntToDecimal(code);
    StaleFrameRead(d, output);
    StaleFrameDecode(code, output);
    assert s.unread + FrameReply(output) == [d + "\n"] + FrameReply(output);
  }

  /** The corrected reader, for every output, empty or not: the output
      decodes to exactly the bytes written, the status line is the line the
      status query produced, and only what follows it stays in the pipe. */
  lemma ExecuteRoundTrip(s: Session, command: string, timeout: Option<int>,
                         output: seq<byte>, statusReply: seq<string>)
    requires s.alive && s.unread == [] && statusReply != []
    ensures var r := Execute(s, command, timeout, FrameReply(output), statusReply);
      && r.outcome == StatusOutcome(statusReply[0], output)
      && r.session.written == s.written + [Envelope(command, timeout), StatusQuery]
      && r.session.unread == statusReply[1..]
  {
    var reply := FrameReply(output);
    var f := Frame(Encode(output) + "\n\n", []);
    assert ReadFramePayloadFirst(s.unread + reply) == Some(f) && Decode(f.text) == Some(output) by {
      FrameOfAnyOutput(output);
      assert s.unread + reply == reply;
    }
    assert f.rest + statusReply == statusReply;
    ExecuteOfFrame(s, command, timeout, reply, f, output, statusReply);
  }

  /** With the corrected reader, a command that exits with `code` returns
      `(code, output)` and leaves the pipe empty, so the next call starts in
      step again. */
  lemma ExecuteInStep(s: Session, command: string, timeout: Option<int>,
                      output: seq<byte>, code: int)
    requires s.alive && s.unread == []
    ensures var r := Execute(s, command, timeout, FrameReply(output), [StatusReply(code)]);
      && r.outcome == Returned(code, output)
      && r.session == s.(written := s.written + [Envelope(command, timeout), StatusQuery])
  {
    ExecuteRoundTrip(s, command, timeout, output, [StatusReply(code)]);
    StatusReplyParses(code);
  }

  /** After a call on a session whose process has since exited, every
      `execute` returns `(-1, "")` and writes nothing, and `terminate`
      changes nothing: terminating twice is harmless. */
  lemma DeadSessionIsInert(s: Session, command: string, timeout: Option<int>,
                           reply: seq<string>, statusReply: seq<string>)
    ensures var dead := Terminate(s).(alive := false);
      && dead.written == s.written + (if s.alive then [ExitDirective] else [])
      && ExecuteAsWritten(dead, command, timeout, reply, statusReply) == Call(dead, NotAlive)
      && Execute(dead, command, timeout, reply, statusReply) == Call(dead, NotAlive)
      && Terminate(dead) == dead
  {
  }
}

=== FILE: envelope.dfy ===
/** The command envelope `execute` writes to the shell: the stripped
    command with its error output redirected into its standard output,
    optionally bounded by `timeout`, run in a strict-mode sub-shell whose
    output is base64-encoded on one line and followed by two empty lines. */
module CommandEnvelope {
  import opened Wrappers
  import opened PyText
  import opened ShellQuote
  import opened LineStream

  /** Sends the command's standard error to its standard output. */
  const Redirection: string := "2>&1"

  /** The front of the envelope: a sub-shell in strict mode. */
  const Prologue: string := "( set -euo pipefail; "

  /** The back of the envelope: the sub-shell's output goes through
      `base64 --wrap 0` and two `echo`s, and the line ends. */
  const Epilogue: string := EpilogueLine + "\n"

  const EpilogueLine: string := " ) | (base64 --wrap 0; echo; echo;)"

  /** A command that asks to run in the background ends with `&`. */
  predicate IsBackground(cmd: string) {
    cmd != [] && cmd[|cmd| - 1] == '&'
  }

  /** The command without its background marker. */
  function Foreground(cmd: string): (r: string)
    ensures IsBackground(cmd) ==> cmd == r + "&"
    ensures !IsBackground(cmd) ==> r == cmd
  {
    if IsBackground(cmd) then cmd[..|cmd| - 1] else cmd
  }

  /** Adds the redirection to a stripped command, as written. The
      command's own text is kept in front; a background command gets
      `2>&1 &` in place of its final `&` and so stays in the background;
      any other command gets ` 2>&1` after it. Redirecting adds no line
      break. */
  function RedirectAsWritten(cmd: string): (r: string)
    ensures |r| > |Foreground(cmd)| && r[..|Foreground(cmd)|] == Foreground(cmd)
    ensures IsBackground(cmd) ==> r[|Foreground(cmd)|..] == Redirection + " &"
    ensures !IsBackground(cmd) ==> r[|Foreground(cmd)|..] == " " + Redirection
    ensures IsBackground(r) <==> IsBackground(cmd)
    ensures ('\n' in r) <==> ('\n' in cmd)
  {
    var tail := if IsBackground(cmd) then Redirection + " &" else " " + Redirection;
    RedirectTail(cmd, tail)
  }

  /** Adds the redirection to a stripped command with a blank in front of
      it in both cases, so that the redirection is always a word of its
      own: a background command gets ` 2>&1 &` in place of its final `&`,
      any other command gets ` 2>&1` after it. */
  function Redirect(cmd: string): (r: string)
    ensures |r| > |Foreground(cmd)| && r[..|Foreground(cmd)|] == Foreground(cmd)
    ensures IsBackground(cmd) ==> r[|Foreground(cmd)|..] == " " + Redirection + " &"
    ensures !IsBackground(cmd) ==> r[|Foreground(cmd)|..] == " " + Redirection
    ensures IsBackground(r) <==> IsBackground(cmd)
    ensures ('\n' in r) <==> ('\n' in cmd)
  {
    var tail := if IsBackground(cmd) then " " + Redirection + " &" else " " + Redirection;
    RedirectTail(cmd, tail)
  }

  /** The command without its background marker, followed by a tail with
      no line break that ends in `&` exactly when the command did. */
  function RedirectTail(cmd: string, tail: string): (r: string)
    requires tail != [] && '\n' !in tail
    requires (tail[|tail| - 1] == '&') <==> IsBackground(cmd)
    ensures r == Foreground(cmd) + tail
    ensures IsBackground(r) <==> IsBackground(cmd)
    ensures ('\n' in r) <==> ('\n' in cmd)
  {
    var body := Foreground(cmd);
    var r := body + tail;
    assert r[..|body|] == body;
    assert ('\n' in cmd) <==> ('\n' in body) by {
      if IsBackground(cmd) {
        assert cmd == body + "&";
        assert '\n' !in "&";
      }
    }
    assert ('\n' in r) <==> ('\n' in body) by {
      assert r[|body|..] == tail;
      assert r == body + tail;
    }
    r
  }

  /** The corrected redirection differs from the one as written only by
      the blank it puts in front of `2>&1` after a background command; as
      written, that blank is missing exactly for background commands. */
  lemma RedirectSeparates(cmd: string)
    ensures !IsBackground(cmd) ==> Redirect(cmd) == RedirectAsWritten(cmd)
    ensures IsBackground(cmd) ==>
      Redirect(cmd) == Foreground(cmd) + " " + RedirectAsWritten(cmd)[|Foreground(cmd)|..]
    ensures Redirect(cmd)[|Foreground(cmd)|] == ' '
    ensures RedirectAsWritten(cmd)[|Foreground(cmd)|] == ' ' <==> !IsBackground(cmd)
  {
    var body := Foreground(cmd);
    var a := RedirectAsWritten(cmd);
    var c := Redirect(cmd);
    assert a == body + a[|body|..];
    assert c == body + c[|body|..];
    assert a[|body|] == a[|body|..][0];
    assert c[|body|] == c[|body|..][0];
  }

  /** Bounds the command with `timeout` when a timeout is given: the
      command becomes one argument of `sh -c`, quoted by `shlex.quote`.
      Without a timeout the command is left as it is. Either way no line
      break is added or removed. */
  function WithTimeout(cmd: string, timeout: Option<int>): (r: string)
    ensures timeout.None? ==> r == cmd
    ensures ('\n' in r) <==> ('\n' in cmd)
  {
    match timeout
    case None => cmd
    case Some(t) =>
      var head := "timeout " + IntToDecimal(t) + " sh -c ";
      assert '\n' !in head;
      head + Quote(cmd)
  }

  /** The strict-mode sub-shell around a redirected command, whose output
      is encoded and ended by two empty lines. */
  function Enclose(cmd: string, timeout: Option<int>): string {
    Prologue + WithTimeout(cmd, timeout) + Epilogue
  }

  /** The envelope as written: the redirection is glued to the last word of
      a background command. It always ends in a line terminator. */
  function EnvelopeAsWritten(command: string, timeout: Option<int>): (e: string)
    ensures e == Prologue + WithTimeout(RedirectAsWritten(Strip(command)), timeout) + Epilogue
    ensures e[|e| - 1] == '\n'
  {
    Enclose(RedirectAsWritten(Strip(command)), timeout)
  }

  /** The envelope with the corrected redirection. It always ends in a line
      terminator. */
  function Envelope(command: string, timeout: Option<int>): (e: string)
    ensures e == Prologue + WithTimeout(Redirect(Strip(command)), timeout) + Epilogue
    ensures e[|e| - 1] == '\n'
  {
    Enclose(Redirect(Strip(command)), timeout)
  }

  /** The envelope, as written or corrected, is one line that ends in its
      only line terminator, so the shell reads it as one command, exactly
      when the stripped command holds no line break. */
  lemma EnvelopeIsOneLine(command: string, timeout: Option<int>)
    ensures IsLine(EnvelopeAsWritten(command, timeout)) && EndsLine(EnvelopeAsWritten(command, timeout)) <==> '\n' !in Strip(command)
    ensures IsLine(Envelope(command, timeout)) && EndsLine(Envelope(command, timeout)) <==> '\n' !in Strip(command)
  {
    EncloseIsOneLine(RedirectAsWritten(Strip(command)), timeout);
    EncloseIsOneLine(Redirect(Strip(command)), timeout);
  }

  lemma EncloseIsOneLine(cmd: string, timeout: Option<int>)
    ensures IsLine(Enclose(cmd, timeout)) && EndsLine(Enclose(cmd, timeout)) <==> '\n' !in cmd
  {
    var inner := WithTimeout(cmd, timeout);
    FixedPartsAreOneLine();
    EnvelopeLines(Prologue, inner, EpilogueLine);
    assert Enclose(cmd, timeout) == Prologue + inner + (EpilogueLine + "\n");
  }

  lemma FixedPartsAreOneLine()
    ensures '\n' !in Prologue && '\n' !in EpilogueLine
  {
  }

  /** Three pieces of text followed by a line terminator make one line
      exactly when the middle piece has no line break, provided the outer
      pieces have none. */
  lemma EnvelopeLines(p: string, inner: string, q: string)
    requires '\n' !in p && '\n' !in q
    ensures var e := p + inner + (q + "\n");
      (forall i :: 0 <= i < |e| - 1 ==> e[i] != '\n') <==> '\n' !in inner
  {
    var line := p + inner + q;
    var e := p + inner + (q + "\n");
    assert e == line + "\n";
    NewlineInConcat(p, inner);
    NewlineInConcat(p + inner, q);
    assert forall i :: 0 <= i < |line| ==> e[i] == line[i];
  }

  lemma NewlineInConcat(a: string, b: string)
    ensures ('\n' in a + b) <==> ('\n' in a || '\n' in b)
  {
    if '\n' in a + b {
      var j :| 0 <= j < |a + b| && (a + b)[j] == '\n';
      if j < |a| {
        assert a[j] == '\n';
      } else {
        assert b[j - |a|] == '\n';
      }
    }
    if '\n' in a {
      var j :| 0 <= j < |a| && a[j] == '\n';
      assert (a + b)[j] == '\n';
    }
    if '\n' in b {
      var j :| 0 <= j < |b| && b[j] == '\n';
      assert (a + b)[|a| + j] == '\n';
    }
  }

  /** With a timeout, the argument handed to `sh -c` reads back, after the
      shell removes its quotes, as exactly the redirected command: quoting
      cannot split it or alter it, whatever characters it holds. */
  lemma TimeoutKeepsCommand(cmd: string, t: int)
    ensures WithTimeout(cmd, Some(t)) == "timeout " + IntToDecimal(t) + " sh -c " + Quote(cmd)
    ensures Unquote(Quote(cmd), Bare) == Some(cmd)
  {
    UnquoteQuote(cmd);
  }

  /** The envelope depends on the command only through its stripped text. */
  lemma EnvelopeOfStripped(command: string, timeout: Option<int>)
    ensures EnvelopeAsWritten(Strip(command), timeout) == EnvelopeAsWritten(command, timeout)
    ensures Envelope(Strip(command), timeout) == Envelope(command, timeout)
  {
    StripIdempotent(command);
  }

  /** A background marker with no space before it: as written, the
      redirection is glued to the last word, so `sleep 1&` becomes
      `sleep 12>&1 &`, where the shell reads `12>&1` as a redirection of
      descriptor 12 and `sleep` loses its argument. The corrected
      redirection gives `sleep 1 2>&1 &`. */
  lemma BackgroundWithoutSpace()
    ensures RedirectAsWritten("sleep 1&") == "sleep 12>&1 &"
    ensures Redirect("sleep 1&") == "sleep 1 2>&1 &"
  {
    assert Foreground("sleep 1&") == "sleep 1";
  }
}

=== FILE: line_stream.dfy ===
/** The controller's view of the shell's merged output pipe: a sequence of
    lines as `readline()` returns them, each ending in its line terminator
    (only the last line of a stream that ends without one may lack it). A
    frame is read by taking lines up to and including the first blank line,
    that is, the first line that is just a line terminator. */
module LineStream {
  import opened Wrappers

  /** A line with nothing on it: what `echo` with no arguments prints. */
  const Blank: string := "\n"

  /** The text a sequence of lines was cut from. */
  function Concat(lines: seq<string>): string
    decreases |lines|
  {
    if lines == [] then "" else lines[0] + Concat(lines[1..])
  }

  /** The length of the first line of `s`: up to and including its first
      line terminator, or all of `s` when it has none. */
  function FirstLineLength(s: string): (k: nat)
    requires s != []
    ensures 0 < k <= |s|
    ensures forall i :: 0 <= i < k - 1 ==> s[i] != '\n'
    ensures s[k - 1] == '\n' || (k == |s| && '\n' !in s)
    decreases |s|
  {
    if s[0] == '\n' || |s| == 1 then 1 else 1 + FirstLineLength(s[1..])
  }

  /** A line as `readline()` returns it: non-empty, with a line terminator
      at most at its end. */
  predicate IsLine(l: string) {
    l != [] && forall i :: 0 <= i < |l| - 1 ==> l[i] != '\n'
  }

  predicate EndsLine(l: string) {
    l != [] && l[|l| - 1] == '\n'
  }

  /** Cuts text into lines the way repeated `readline()` calls do. Joining
      the lines gives back the text, every piece is a line, and every line
      but the last ends in a line terminator. */
  function Lines(s: string): (ls: seq<string>)
    ensures Concat(ls) == s
    ensures forall j :: 0 <= j < |ls| ==> IsLine(ls[j])
    ensures forall j :: 0 <= j < |ls| - 1 ==> EndsLine(ls[j])
    decreases |s|
  {
    if s == [] then []
    else
      var k := FirstLineLength(s);
      var rest := Lines(s[k..]);
      assert s == s[..k] + s[k..];
      [s[..k]] + rest
  }

  /** The position of the first blank line. */
  function FirstBlank(lines: seq<string>): (k: nat)
    requires Blank in lines
    ensures k < |lines| && lines[k] == Blank
    ensures forall j :: 0 <= j < k ==> lines[j] != Blank
    decreases |lines|
  {
    if lines[0] == Blank then 0
    else
      assert Blank in lines[1..] by {
        var j :| 0 <= j < |lines| && lines[j] == Blank;
        assert lines[1..][j - 1] == Blank;
      }
      1 + FirstBlank(lines[1..])
  }

  /** What a frame read leaves behind: the text it accumulated and the
      lines still unread in the pipe. */
  datatype Frame = Frame(text: string, rest: seq<string>)

  lemma BlankInTail(lines: seq<string>)
    requires lines != [] && lines[0] != Blank
    ensures Blank in lines <==> Blank in lines[1..]
  {
    if Blank in lines {
      var j :| 0 <= j < |lines| && lines[j] == Blank;
      assert lines[1..][j - 1] == Blank;
    }
    if Blank in lines[1..] {
      var j :| 0 <= j < |lines[1..]| && lines[1..][j] == Blank;
      assert lines[j + 1] == Blank;
    }
  }

  lemma ConcatPrefixCons(lines: seq<string>, n: nat)
    requires n < |lines|
    ensures Concat(lines[..n + 1]) == lines[0] + Concat(lines[1..][..n])
  {
    assert lines[..n + 1][1..] == lines[1..][..n];
  }

  /** A frame found in the tail of `lines`, after a line that is not
      blank, is the frame of `lines` with that line in front. */
  lemma FrameOfTail(lines: seq<string>, acc: string)
    requires lines != [] && lines[0] != Blank && Blank in lines[1..]
    ensures Blank in lines
    ensures var k := FirstBlank(lines[1..]);
      && FirstBlank(lines) == k + 1
      && (acc + lines[0]) + Concat(lines[1..][..k + 1]) == acc + Concat(lines[..k + 2])
      && lines[1..][k + 1..] == lines[k + 2..]
  {
    BlankInTail(lines);
    var k := FirstBlank(lines[1..]);
    ConcatAfterHead(lines, acc, k + 1);
    DropAfterHead(lines, k + 1);
  }

  lemma ConcatAfterHead(lines: seq<string>, acc: string, n: nat)
    requires n < |lines|
    ensures (acc + lines[0]) + Concat(lines[1..][..n]) == acc + Concat(lines[..n + 1])
  {
    var x := Concat(lines[1..][..n]);
    ConcatPrefixCons(lines, n);
    assert (acc + lines[0]) + x == acc + (lines[0] + x);
  }

  lemma DropAfterHead(lines: seq<string>, n: nat)
    requires n < |lines|
    ensures lines[1..][n..] == lines[n + 1..]
  {
  }

  /** The read loop of `execute`: append each line read to `acc` and stop
      after the first blank line. `None` stands for a pipe that never
      delivers a blank line, where the loop never ends. When a blank line
      arrives, the accumulated text is every line up to and including the
      first blank one and everything after it is left unread. */
  function ReadUntilBlank(lines: seq<string>, acc: string): (r: Option<Frame>)
    ensures r.Some? <==> Blank in lines
    ensures r.Some? ==>
      && r.value.text == acc + Concat(lines[..FirstBlank(lines) + 1])
      && r.value.rest == lines[FirstBlank(lines) + 1..]
    decreases |lines|
  {
    if lines == [] then None
    else if lines[0] == Blank then
      assert lines[..1] == [Blank];
      Some(Frame(acc + lines[0], lines[1..]))
    else
      BlankInTail(lines);
      var r := ReadUntilBlank(lines[1..], acc + lines[0]);
      if r.Some? then
        FrameOfTail(lines, acc);
        r
      else r
  }

  /** The frame reader as written: it starts from empty text, so a frame
      is read exactly when a blank line arrives, its text is the lines up
      to and including the first blank one, and the lines after it stay
      unread. */
  function ReadFrame(lines: seq<string>): (r: Option<Frame>)
    ensures r.Some? <==> Blank in lines
    ensures r.Some? ==>
      && r.value.text == Concat(lines[..FirstBlank(lines) + 1])
      && r.value.rest == lines[FirstBlank(lines) + 1..]
  {
    ReadUntilBlank(lines, "")
  }

  /** A frame reader that always takes the payload line first, whatever it
      holds, and only then waits for the blank line. */
  function ReadFramePayloadFirst(lines: seq<string>): (r: Option<Frame>)
    ensures r.Some? <==> lines != [] && Blank in lines[1..]
    ensures r.Some? ==>
      && r.value.text == Concat(lines[..FirstBlank(lines[1..]) + 2])
      && r.value.rest == lines[FirstBlank(lines[1..]) + 2..]
  {
    if lines == [] then None
    else
      var r := ReadUntilBlank(lines[1..], lines[0]);
      if r.Some? then
        var k := FirstBlank(lines[1..]);
        ConcatPrefixCons(lines, k + 1);
        assert lines[k + 2..] == lines[1..][k + 1..];
        r
      else r
  }

  /** The lines the shell prints for one frame: the encoded payload, which
      holds no line terminator, ended by the first `echo`, then the blank
      line of the second `echo`. When the payload is empty both lines are
      blank. */
  lemma LinesOfFrame(enc: string)
    requires '\n' !in enc
    ensures enc != [] ==> Lines(enc + "\n\n") == [enc + "\n", Blank]
    ensures enc == [] ==> Lines(enc + "\n\n") == [Blank, Blank]
  {
    var s := enc + "\n\n";
    assert forall i :: 0 <= i < |enc| ==> s[i] == enc[i];
    assert s[|enc|] == '\n';
    var k := FirstLineLength(s);
    assert k == |enc| + 1;
    assert s[..k] == enc + "\n";
    assert s[k..] == "\n";
    LinesOfBlank();
    assert Lines(s) == [s[..k]] + Lines(s[k..]);
    if enc == [] {
      assert enc + "\n" == Blank;
    }
  }

  lemma LinesOfBlank()
    ensures Lines(Blank) == [Blank]
  {
    assert FirstLineLength(Blank) == 1;
    assert Blank[..1] == Blank && Blank[1..] == [];
    assert Lines(Blank) == [Blank[..1]] + Lines(Blank[1..]);
  }

  /** The reader as written on a frame whose payload is not empty: it takes
      exactly the two lines of the frame and accumulates their text. */
  lemma ReadFrameOfPayload(enc: string, more: seq<string>)
    requires '\n' !in enc && enc != []
    ensures ReadFrame(Lines(enc + "\n\n") + more) == Some(Frame(enc + "\n\n", more))
  {
    LinesOfFrame(enc);
    var lines := [enc + "\n", Blank] + more;
    assert lines == Lines(enc + "\n\n") + more;
    assert lines[0] != Blank by {
      assert |lines[0]| > 1;
    }
    assert lines[1..] == [Blank] + more;
    assert ([Blank] + more)[1..] == more;
    assert lines[1..][0] == Blank;
    assert "" + lines[0] == lines[0];
    assert ReadUntilBlank(lines, "") == ReadUntilBlank(lines[1..], lines[0]);
    assert ReadUntilBlank(lines[1..], lines[0]) == Some(Frame(lines[0] + Blank, more));
    assert (enc + "\n") + Blank == enc + "\n\n";
  }

  /** The reader as written on a frame whose payload is empty: the first
      line is already blank, so it stops there and leaves the second blank
      line in the pipe. */
  lemma ReadFrameOfEmptyPayload(more: seq<string>)
    ensures ReadFrame(Lines("\n\n") + more) == Some(Frame(Blank, [Blank] + more))
  {
    LinesOfFrame("");
    assert "" + "\n\n" == "\n\n";
    var lines := [Blank, Blank] + more;
    assert lines == Lines("\n\n") + more;
    assert lines[1..] == [Blank] + more;
    assert "" + Blank == Blank;
  }

  /** The payload-first reader takes exactly the two lines of every frame,
      empty payload or not. */
  lemma ReadFramePayloadFirstOfFrame(enc: string, more: seq<string>)
    requires '\n' !in enc
    ensures ReadFramePayloadFirst(Lines(enc + "\n\n") + more) == Some(Frame(enc + "\n\n", more))
  {
    LinesOfFrame(enc);
    var first := if enc == [] then Blank else enc + "\n";
    var lines := [first, Blank] + more;
    assert Lines(enc + "\n\n") + more == lines;
    assert lines[1..] == [Blank] + more;
    assert ([Blank] + more)[1..] == more;
    assert first + Blank == enc + "\n\n";
  }
}

=== FILE: pytext.dfy ===
/** The three Python string operations the session controller relies on:
    `str.strip()`, `str(int)` (used when formatting the timeout) and
    `int(str)` (used when parsing the exit status). */
module PyText {
  import opened Wrappers

  /** The characters for which Python's `str.isspace()` holds: the ones
      `str.strip()` removes. */
  const Whitespace: set<char> := {
    ' ', '\t', '\n', '\U{B}', '\U{C}', '\r', '\U{1C}', '\U{1D}', '\U{1E}', '\U{1F}',
    '\U{85}', '\U{A0}', '\U{1680}', '\U{2000}', '\U{2001}', '\U{2002}', '\U{2003}',
    '\U{2004}', '\U{2005}', '\U{2006}', '\U{2007}', '\U{2008}', '\U{2009}', '\U{200A}',
    '\U{2028}', '\U{2029}', '\U{202F}', '\U{205F}', '\U{3000}'
  }

  predicate IsSpace(c: char) {
    c in Whitespace
  }

  /** How many whitespace characters `s` starts with. */
  function LeadingSpace(s: string): (n: nat)
    ensures n <= |s|
    ensures forall k :: 0 <= k < n ==> IsSpace(s[k])
    ensures n < |s| ==> !IsSpace(s[n])
    decreases |s|
  {
    if s != [] && IsSpace(s[0]) then 1 + LeadingSpace(s[1..]) else 0
  }

  /** Where the whitespace at the back of `s` begins. */
  function TrailingSpace(s: string): (n: nat)
    ensures n <= |s|
    ensures forall k :: n <= k < |s| ==> IsSpace(s[k])
    ensures 0 < n ==> !IsSpace(s[n - 1])
    decreases |s|
  {
    if s != [] && IsSpace(s[|s| - 1]) then TrailingSpace(s[..|s| - 1]) else |s|
  }

  /** `r` is the slice of `s` starting at `i`, and everything in `s`
      around it is whitespace. */
  predicate AmidSpace(s: string, i: int, r: string) {
    && 0 <= i <= |s| - |r| && r == s[i..i + |r|]
    && (forall k :: 0 <= k < i ==> IsSpace(s[k]))
    && (forall k :: i + |r| <= k < |s| ==> IsSpace(s[k]))
  }

  /** `str.strip()`: either nothing but whitespace was there, or the result
      is the slice of `s` after its leading whitespace, with only whitespace
      after it and no whitespace at either of its ends. */
  function Strip(s: string): (r: string)
    ensures |r| <= |s|
    ensures r == [] ==> forall k :: 0 <= k < |s| ==> IsSpace(s[k])
    ensures r != [] ==> !IsSpace(r[0]) && !IsSpace(r[|r| - 1]) && AmidSpace(s, LeadingSpace(s), r)
  {
    var i := LeadingSpace(s);
    var j := i + TrailingSpace(s[i..]);
    TrailingSpaceOfSuffix(s, i);
    s[i..j]
  }

  /** The trailing whitespace of a suffix `s[i..]`, as positions in `s`. */
  lemma TrailingSpaceOfSuffix(s: string, i: nat)
    requires i <= |s|
    ensures var j := i + TrailingSpace(s[i..]);
      && j <= |s|
      && (forall k :: j <= k < |s| ==> IsSpace(s[k]))
      && (i < j ==> !IsSpace(s[j - 1]))
  {
    var t := s[i..];
    var j := i + TrailingSpace(t);
    forall k | j <= k < |s|
      ensures IsSpace(s[k])
    {
      assert s[k] == t[k - i];
    }
    if i < j {
      assert s[j - 1] == t[j - 1 - i];
    }
  }

  /** Stripping is idempotent. */
  lemma StripIdempotent(s: string)
    ensures Strip(Strip(s)) == Strip(s)
  {
    StripUnchanged(Strip(s));
  }

  /** Text with no whitespace at either end is left as it is. */
  lemma StripUnchanged(s: string)
    requires s == [] || (!IsSpace(s[0]) && !IsSpace(s[|s| - 1]))
    ensures Strip(s) == s
  {
    if s != [] {
      assert LeadingSpace(s) == 0;
      assert s[0..] == s;
    }
  }

  /** A newline (or any other whitespace) at the end of a line that has no
      whitespace at its ends otherwise is removed. */
  lemma StripLineEnd(s: string, c: char)
    requires s != [] && !IsSpace(s[0]) && !IsSpace(s[|s| - 1]) && IsSpace(c)
    ensures Strip(s + [c]) == s
  {
    var sc := s + [c];
    assert LeadingSpace(sc) == 0;
    assert sc[0..] == sc;
    assert sc[..|sc| - 1] == s;
    assert TrailingSpace(s) == |s|;
    assert sc[0..|s|] == s;
  }

  predicate IsDigit(c: char) { '0' <= c <= '9' }

  /** A non-empty run of ASCII decimal digits. */
  predicate IsDigits(s: string) {
    s != [] && forall i :: 0 <= i < |s| ==> IsDigit(s[i])
  }

  function DigitChar(d: int): (c: char)
    requires 0 <= d < 10
    ensures IsDigit(c) && c as int - '0' as int == d
  {
    ('0' as int + d) as char
  }

  /** The number a run of decimal digits denotes. */
  function DigitsValue(s: string): nat
    requires IsDigits(s)
    decreases |s|
  {
    var d := s[|s| - 1] as int - '0' as int;
    if |s| == 1 then d else DigitsValue(s[..|s| - 1]) * 10 + d
  }

  /** The decimal digits of a natural number, most significant first and
      without leading zeros. */
  function NatToDigits(n: nat): (r: string)
    ensures IsDigits(r)
    ensures |r| > 1 ==> r[0] != '0'
    decreases n
  {
    if n < 10 then [DigitChar(n)] else NatToDigits(n / 10) + [DigitChar(n % 10)]
  }

  /** Numbers below 1000 take one digit below 10, two below 100 and three
      otherwise. */
  lemma {:induction false} NatToDigitsLength(n: nat)
    requires n < 1000
    ensures |NatToDigits(n)| == if n < 10 then 1 else if n < 100 then 2 else 3
    decreases n
  {
    if n >= 10 {
      NatToDigitsLength(n / 10);
    }
  }

  /** `str(n)` for a Python `int`: a minus sign for negative numbers, then
      the digits of the magnitude. */
  function IntToDecimal(n: int): (r: string)
    ensures r != [] && !IsSpace(r[0]) && !IsSpace(r[|r| - 1])
    ensures '\n' !in r
    ensures (r[0] == '-') <==> n < 0
  {
    if n < 0 then "-" + NatToDigits(-n) else NatToDigits(n)
  }

  /** `int(s)` for a Python `str`: surrounding whitespace is ignored, then an
      optional sign and a non-empty run of decimal digits must make up the
      whole text; anything else is `None` (Python raises `ValueError`).
      Blank text is always rejected. */
  function ParseInt(s: string): (r: Option<int>)
    ensures Strip(s) == [] ==> r == None
    ensures r.Some? && r.value < 0 ==> Strip(s)[0] == '-'
  {
    ParseSigned(Strip(s))
  }

  /** An optional sign followed by a non-empty run of digits, and nothing
      else. */
  function ParseSigned(t: string): (r: Option<int>)
    ensures t == [] ==> r == None
    ensures r.Some? && r.value < 0 ==> t[0] == '-'
  {
    if t != [] && (t[0] == '-' || t[0] == '+') then
      if IsDigits(t[1..]) then
        Some(if t[0] == '-' then -(DigitsValue(t[1..]) as int) else DigitsValue(t[1..]))
      else None
    else if IsDigits(t) then Some(DigitsValue(t))
    else None
  }

  lemma {:induction false} DigitsValueOfNat(n: nat)
    ensures DigitsValue(NatToDigits(n)) == n
    decreases n
  {
    if n >= 10 {
      var p := NatToDigits(n / 10);
      var s := p + [DigitChar(n % 10)];
      assert s[..|s| - 1] == p;
      DigitsValueOfNat(n / 10);
    }
  }

  /** `int(str(n)) == n`: parsing gives back every integer that was
      formatted, also with a line terminator after it. */
  lemma ParseIntToDecimal(n: int, c: char)
    requires IsSpace(c)
    ensures ParseInt(IntToDecimal(n)) == Some(n)
    ensures ParseInt(IntToDecimal(n) + [c]) == Some(n)
  {
    var r := IntToDecimal(n);
    StripUnchanged(r);
    StripLineEnd(r, c);
    ParseIntOfDecimal(n);
  }

  lemma ParseIntOfDecimal(n: int)
    ensures ParseSigned(IntToDecimal(n)) == Some(n)
  {
    var r := IntToDecimal(n);
    if n < 0 {
      assert r[1..] == NatToDigits(-n);
      DigitsValueOfNat(-n);
      assert r[0] == '-';
    } else {
      DigitsValueOfNat(n);
      assert IsDigits(r);
      assert r[0] != '-' && r[0] != '+';
    }
  }
}

=== FILE: shell_quote.dfy ===
/** `shlex.quote`, which protects the redirected command when it is handed
    to `sh -c` as one argument, and a reader for the POSIX shell words it
    produces. The reader is the quoting's inverse: it is how the shell turns
    the quoted text back into the argument `sh -c` receives. */
module ShellQuote {
  import opened Wrappers

  /** The characters `shlex.quote` leaves unquoted: ASCII word characters
      and `@%+=:,./-`. */
  predicate IsSafe(c: char) {
    || ('a' <= c <= 'z') || ('A' <= c <= 'Z') || ('0' <= c <= '9')
    || c == '_' || c == '@' || c == '%' || c == '+' || c == '='
    || c == ':' || c == ',' || c == '.' || c == '/' || c == '-'
  }

  predicate AllSafe(s: string) {
    forall i :: 0 <= i < |s| ==> IsSafe(s[i])
  }

  /** The text of `s` with every single quote replaced by `'"'"'`: close the
      single-quoted run, write the quote inside double quotes, reopen. */
  function EscapeQuotes(s: string): (r: string)
    ensures ('\n' in r) <==> ('\n' in s)
    decreases |s|
  {
    if s == [] then ""
    else if s[0] == '\'' then "'\"'\"'" + EscapeQuotes(s[1..])
    else [s[0]] + EscapeQuotes(s[1..])
  }

  /** `shlex.quote(s)`: `''` for the empty text, `s` itself when every
      character is safe, otherwise `s` in single quotes with its own single
      quotes escaped. Quoting neither adds nor removes newlines. */
  function Quote(s: string): (r: string)
    ensures s == [] ==> r == "''"
    ensures s != [] && !AllSafe(s) ==> |r| >= 2 && r[0] == '\'' && r[|r| - 1] == '\''
    ensures ('\n' in r) <==> ('\n' in s)
  {
    if s == [] then "''"
    else if AllSafe(s) then s
    else "'" + EscapeQuotes(s) + "'"
  }

  /** Where the shell's word reader is: outside quotes, inside single
      quotes, or inside double quotes. */
  datatype Mode = Bare | Single | Double

  function Prepend(c: char, w: Option<string>): Option<string> {
    match w
    case None => None
    case Some(t) => Some([c] + t)
  }

  /** Reads one shell word the way a POSIX shell removes quotes from it.
      Inside single quotes every character is literal; inside double quotes
      every character except `"`, `\`, `$` and the backquote is literal
      (those are expansions this reader does not perform, so it refuses
      them); outside quotes only the characters `shlex.quote` calls safe are
      accepted. An unterminated quote is refused. */
  function Unquote(w: string, mode: Mode): (r: Option<string>)
    decreases |w|
  {
    if w == [] then (if mode == Bare then Some("") else None)
    else
      match mode
      case Bare =>
        if w[0] == '\'' then Unquote(w[1..], Single)
        else if w[0] == '"' then Unquote(w[1..], Double)
        else if IsSafe(w[0]) then Prepend(w[0], Unquote(w[1..], Bare))
        else None
      case Single =>
        if w[0] == '\'' then Unquote(w[1..], Bare)
        else Prepend(w[0], Unquote(w[1..], Single))
      case Double =>
        if w[0] == '"' then Unquote(w[1..], Bare)
        else if w[0] == '\\' || w[0] == '$' || w[0] == '`' then None
        else Prepend(w[0], Unquote(w[1..], Double))
  }

  function PrependAll(s: string, w: Option<string>): Option<string> {
    match w
    case None => None
    case Some(t) => Some(s + t)
  }

  /** Inside single quotes, `'"'"'` reads back as one single quote. */
  lemma UnquoteEscapedQuote(tail: string)
    ensures Unquote("'\"'\"'" + tail, Single) == Prepend('\'', Unquote(tail, Single))
  {
    var w0 := "'\"'\"'" + tail;
    var w1 := "\"'\"'" + tail;
    var w2 := "'\"'" + tail;
    var w3 := "\"'" + tail;
    var w4 := "'" + tail;
    assert w0[0] == '\'' && w0[1..] == w1;
    assert w1[0] == '"' && w1[1..] == w2;
    assert w2[0] == '\'' && w2[1..] == w3;
    assert w3[0] == '"' && w3[1..] == w4;
    assert w4[0] == '\'' && w4[1..] == tail;
    assert Unquote(w0, Single) == Unquote(w1, Bare);
    assert Unquote(w1, Bare) == Unquote(w2, Double);
    assert Unquote(w2, Double) == Prepend('\'', Unquote(w3, Double));
    assert Unquote(w3, Double) == Unquote(w4, Bare);
    assert Unquote(w4, Bare) == Unquote(tail, Single);
  }

  /** Inside single quotes, any other character is literal. */
  lemma UnquoteLiteral(c: char, tail: string)
    requires c != '\''
    ensures Unquote([c] + tail, Single) == Prepend(c, Unquote(tail, Single))
  {
    assert ([c] + tail)[1..] == tail;
  }

  lemma PrependAllCons(s: string, w: Option<string>)
    requires s != []
    ensures PrependAll(s, w) == Prepend(s[0], PrependAll(s[1..], w))
  {
    match w
    case None =>
    case Some(t) =>
      assert s + t == [s[0]] + (s[1..] + t);
  }

  /** Inside single quotes, the escaped text reads back as the original. */
  lemma {:induction false} UnquoteEscaped(s: string, rest: string)
    ensures Unquote(EscapeQuotes(s) + rest, Single) == PrependAll(s, Unquote(rest, Single))
    decreases |s|
  {
    if s == [] {
      assert EscapeQuotes(s) + rest == rest;
      match Unquote(rest, Single)
      case None =>
      case Some(t) => assert s + t == t;
    } else {
      var tail := EscapeQuotes(s[1..]) + rest;
      UnquoteEscaped(s[1..], rest);
      if s[0] == '\'' {
        assert EscapeQuotes(s) + rest == "'\"'\"'" + tail;
        UnquoteEscapedQuote(tail);
      } else {
        assert EscapeQuotes(s) + rest == [s[0]] + tail;
        UnquoteLiteral(s[0], tail);
      }
      PrependAllCons(s, Unquote(rest, Single));
    }
  }

  /** The shell reads `shlex.quote(s)` back as exactly `s`, whatever `s`
      holds: the quoting cannot break the word apart or change its text. */
  lemma UnquoteQuote(s: string)
    ensures Unquote(Quote(s), Bare) == Some(s)
  {
    if s == [] {
    } else if AllSafe(s) {
      UnquoteSafe(s);
    } else {
      var w := "'" + EscapeQuotes(s) + "'";
      assert w[1..] == EscapeQuotes(s) + "'";
      UnquoteEscaped(s, "'");
      assert "'"[1..] == "";
      assert s + "" == s;
    }
  }

  lemma {:induction false} UnquoteSafe(s: string)
    requires AllSafe(s)
    ensures Unquote(s, Bare) == Some(s)
    decreases |s|
  {
    if s != [] {
      assert AllSafe(s[1..]) by {
        assert forall i :: 0 <= i < |s[1..]| ==> s[1..][i] == s[i + 1];
      }
      UnquoteSafe(s[1..]);
      assert s == [s[0]] + s[1..];
    }
  }
}

=== FILE: wrappers.dfy ===
/** Optional values, used for the outcomes of the standard-library calls the
    session makes (decoding, integer parsing) and of the frame reader. */
module Wrappers {

  datatype Option<+T> = None | Some(value: T)
}
